=== FILE: README.md ===
# Facility booking service — a Dafny model of its booking rules

The facility service lets an organization's members book a facility for a
time window. A booking request is PENDING until someone with the
`UPDATE_FACILITY` permission approves or rejects it. This project models the
service's core as pure functions over integer instants (seconds since
1970-01-01 UTC) and proves properties about it. The modelled parts are:

- **day difference**: the day count every rule is built on.
  `checkDateInput` receives it injected; the availability query calls
  `helper.DayDifference` directly. The one `internal/helper/main.go`
  defines is an elapsed-time ceiling;
- **error taxonomy**: each error kind's status code and message;
- **booking-window validation** (`checkDateInput`) and the field-copy
  conversions from rows to messages;
- **store**: the `facility` and `facility_request` tables as sequences of
  rows, with lookup, the approved-overlap count, the status update and the
  insert;
- **availability grid**: one row per day of a query, masked by approved
  requests;
- **authorization decisions** of create, approve and reject, and the
  permission race of `handlePermissionChannel`.

Modules, in dependency order:

- `Wrappers`: `Option` and `Result`.
- `Errors`: gRPC codes, `Permission`, `CustomError` with its `Code()` and
  `Error()`.
- `Clock`: the fields of `time.Time` in UTC: hour, minute, second, weekday
  and day of month. The day of month uses H. Hinnant's `civil_from_days`.
- `Helper`: `DayDifference` and the calendar-day count.
- `Records`: rows and messages.
- `DatabaseHelper`: conversions and `checkDateInput`.
- `Store`: the tables and their operations.
- `Availability`: the grid.
- `Authorization`: the decisions.

Facts about the code that a reader might not expect, all modelled as
written:

- `DayDifference` is an elapsed-time ceiling, not a calendar-date count, and
  it is not antisymmetric.
- The status update filters on the id alone. Nothing checks that the request
  is still PENDING, so an approved or rejected request can be updated again.
- `GetFacilityRequest` reports a missing request as a NotFound error that
  names "facility".
- A transport failure of the permission service becomes a `PermissionError`,
  not an Unavailable error.

## Model

| member | source | states |
|---|---|---|
| Errors.ErrorMappings | internal/typing/main.go:20-73 | each error kind's code (NotFound, PermissionDenied, AlreadyExists, InvalidArgument, Unavailable, or the carried code for DatabaseError) and its message (`Name + ": not found"`, `<permission> + " is denied"`, `Name + ": already exist"`, `"input error: " + Name`, `"service error: " + Name`, or the wrapped error's message) |
| Errors.CodeIdentifiesKind | internal/typing/main.go:30-73 | apart from DatabaseError, two errors share a code iff they are of the same kind, and none reports OK |
| Errors.MessageDeterminesDetail | internal/typing/main.go:30-70 | two errors of the same kind with equal messages carry the same name or permission, so the message loses no detail |
| Errors.StoreNotFound | internal/database/main.go:86-91 | the store's missing-row error has code NotFound and the message of the NotFoundError it wraps |
| Clock.Weekday | internal/database/helper.go:133 | a weekday number is in 0..6, Sunday being 0 |
| Clock.CivilRoundTrip | cmd/helper.go:361 | the civil date used for `Day()` names every day by a distinct date: converting back gives the same day |
| Clock.DayOfMonth | cmd/helper.go:361 | `Day()` is in 1..31 |
| Clock.OnDayReadsBack | internal/database/helper.go:119-120 | the clock fields of an instant built from a day and a clock time read back that day and time |
| Helper.DayDifference | internal/helper/main.go:9-11 | the result is the ceiling of the elapsed days: the least r with end - start at most r days |
| Helper.SameInstantIsZero | internal/helper/main_test.go:14-17 | an instant is 0 days from itself |
| Helper.WholeDaysAreExact | internal/helper/main_test.go:26-32 | instants k whole days apart give exactly k forwards and -k backwards |
| Helper.UnderOneDay | internal/helper/main_test.go:49-51 | any forward difference of at most a day gives 1; any backward difference under a day gives 0 |
| Helper.MonotoneInEnd | internal/helper/main.go:10 | a later end never gives a smaller result |
| Helper.TestTable | internal/helper/main_test.go:26-50 | every date-pair row and the two clock-time rows the code satisfies, leap years included |
| Helper.TestRowExpectingMinusOneFails | internal/helper/main_test.go:51 | one second backwards across midnight gives 0 where the test expects -1, and the same pair forwards gives 1 |
| Helper.CalendarDayDifference | internal/helper/main_test.go:26-51 | the calendar count is non-negative forwards, and zero iff both instants fall on the same civil date |
| Helper.CalendarDayDifferenceProperties | internal/helper/main_test.go:26-32 | the calendar count is antisymmetric, zero on an instant, and agrees with DayDifference on whole days |
| Helper.CalendarDayDifferenceSatisfiesTestTable | internal/helper/main_test.go:26-51 | the calendar count meets all ten rows of the test table, including the one expecting -1 |
| Helper.CalendarMillenniumRows | internal/helper/main_test.go:26-28 | the calendar count gives 1, -1 and -6 for the three date rows around 2000-01-01 |
| Helper.CalendarLongRows | internal/helper/main_test.go:29-32 | the calendar count gives 1028, -1028, 7306 and -7306 for the multi-year date rows |
| Helper.CalendarClockRows | internal/helper/main_test.go:49-51 | the calendar count gives 0, 1 and -1 for the three clock-time rows |
| Helper.CalendarDayDifferenceAtMidnight | internal/helper/main_test.go:26-32 | between two midnights the calendar count is the difference of the dates' day numbers |
| DatabaseHelper.ConvertFacilityModelToProto | internal/database/helper.go:47-62 | fails iff the injected decoder fails, with its error; on success the hours are the decoded ones and every other field is copied, so the row is recovered from the message |
| DatabaseHelper.ConvertFacilityWithStubDecoder | internal/database/helper_test.go:58-96 | with a decoder that answers no hours, the zero row and the populated row convert to the expected messages |
| DatabaseHelper.ConvertFacilityRequestModelToProto | internal/database/helper.go:64-78 | the reason is present iff the column is non-NULL and then equals its text; the row is recovered iff the column is non-NULL or empty |
| DatabaseHelper.RequestRoundTrip | internal/database/helper.go:64-78 | storing a request message and converting the row back gives the message |
| DatabaseHelper.LastIndexFor | internal/database/helper.go:133-140 | the loop's choice is the last operating-hour entry for the weekday, or none iff no entry matches |
| DatabaseHelper.LastEntryIsUnique | internal/database/helper.go:133-140 | at most one entry is the last one for a weekday |
| DatabaseHelper.CheckDateInput | internal/database/helper.go:108-152 | every rejection is an InputError |
| DatabaseHelper.CheckDateInputIsValidWindow | internal/database/helper.go:108-152 | no error iff all the booking rules hold: same day, within the 30-day horizon, not past (including an earlier hour on the same day), whole hours, start hour not after finish hour, and inside the opening hours of the last entry for the weekday |
| DatabaseHelper.RejectionOrder | internal/database/helper.go:109-148 | the rules are tested in order and the first broken one names the error, down to a weekday entry that does not cover the window; the same-day rule comes before all others, and equal start and finish hours pass the order rule |
| DatabaseHelper.CeilingRejectsForwardWindows | internal/database/helper.go:109-111 | with the service's DayDifference, every window whose finish is after its start is rejected as not the same day |
| DatabaseHelper.CheckDateInputByCalendar | internal/database/helper.go:108-152 | with the calendar count, an accepted window lies on one civil date and does not run backwards |
| DatabaseHelper.MondayMorningBookingByCalendar | internal/database/helper.go:108-152 | a 10:00 to 11:00 Monday booking at a facility open 09 to 17, made the day before, passes every rule with the calendar count |
| DatabaseHelper.MondayJanuaryFourthByCalendar | internal/database/helper.go:108-152 | the 2021-01-04 booking that the ceiling rejects passes every rule with the calendar count |
| DatabaseHelper.MondayMorningBookingByCeiling | internal/database/helper.go:109-111 | the same booking on 2021-01-04 is rejected as not the same day with the ceiling |
| Store.FindById | internal/database/main.go:79-84 | no row iff no row has the id; otherwise a row of the table with that id (used for both tables) |
| Store.GetFacilityInfo | internal/database/main.go:77-100 | fails iff no facility has the id, with a NotFound-coded error naming "facility"; otherwise returns a row with that id |
| Store.GetFacilityRequest | internal/database/main.go:226-251 | fails iff no request has the id, with a NotFound-coded error naming "facility"; otherwise returns the conversion of a row with that id |
| Store.CountWhere | internal/database/main.go:205-213 | the count is zero iff no row satisfies the WHERE predicate |
| Store.IsOverlapTime | internal/database/main.go:191-223 | fails iff the facility is missing, with the lookup's error; otherwise true iff some APPROVED row of the facility starts or ends the candidate window inside it as the query's condition says |
| Store.TouchingIsNotOverlap | internal/database/main.go:208 | a window ending at a stored start or starting at a stored finish is not counted |
| Store.ContainmentIsNotOverlap | internal/database/main.go:208 | a window strictly containing a stored one is not counted |
| Store.IrrelevantRowsDoNotMatter | internal/database/main.go:209-210 | adding a row that is not APPROVED or of another facility does not change the answer |
| Store.HourBoundaryExamples | internal/database/main.go:208 | against an approved 10:00 to 12:00 booking, 09-10 and 12-14 do not conflict and 11-13 does |
| Store.OverlapConditionMissesOnlyContainment | internal/database/main.go:208 | for non-empty windows the condition implies intersection, and intersection is the condition or strict containment |
| Store.WindowsIntersectIffSharedInstant | internal/database/main.go:208 | for non-empty windows the interval test holds iff the windows share an instant |
| Store.IsOverlapTimeIntended | internal/database/main.go:191-223 | the intended check: the same lookup error, otherwise true iff some APPROVED row of the facility intersects the window |
| Store.IntendedOverlapExtendsQuery | internal/database/main.go:208 | on non-empty windows the intended check flags everything the query flags |
| Store.ContainedBookingIsMissed | internal/database/main.go:208 | a 09:00 to 13:00 request around an approved 10:00 to 12:00 booking passes the query but not the intended check |
| Store.CountId | internal/database/main.go:125-132 | the affected-row count is zero iff no row has the id |
| Store.UpdateFacilityRequest | internal/database/main.go:102-140 | success iff exactly one row has the id, else a NotFound-coded error naming "FacilityRequest"; rows with the id get the status and, when given, the reason, whatever their status was; other rows and other fields are unchanged |
| Store.ApproveFacilityRequest | internal/database/main.go:147-150 | rows with the id become APPROVED with the reason untouched; other rows are unchanged |
| Store.RejectFacilityRequest | internal/database/main.go:142-145 | rows with the id become REJECTED and take the reason when one is given; other rows are unchanged |
| Store.ApproveTwiceSucceeds | internal/database/main.go:108-111 | approving the same request twice succeeds both times, because the update has no status guard |
| Store.CountIdOnSameIds | internal/database/main.go:132 | an update keeps every row's id, so the count of rows with a given id is unchanged |
| Store.NextId | internal/database/main.go:156-158 | the inserted row's id is carried by no existing row |
| Store.CreateFacilityRequest | internal/database/main.go:153-188 | the returned request is PENDING with no reason and carries the given event, facility and window; its id is new; one row is appended and nothing else changes |
| Store.CreateThenGet | internal/database/main.go:153-188 | a created request reads back as returned, and a new PENDING row never changes an overlap answer |
| Store.FindRequestSkipsOthers | internal/database/main.go:229-235 | an appended row whose id no earlier row carries is the one found |
| Availability.CreateResultEmptyArray | cmd/helper.go:332-354 | `DayDifference + 1` days; day i is nil iff the weekday of start plus i days has no entry, otherwise all true with `finishHour - startHour` slots; only the entries of visited weekdays must open no later than they close |
| Availability.UnvisitedMalformedEntryIsHarmless | cmd/helper.go:336-351 | a Sunday query builds its grid although Wednesday's entry closes before it opens, since `make` is only reached for visited weekdays |
| Availability.WeekdayAfterDays | cmd/helper.go:337-338 | the weekday advances by one (mod 7) per day added |
| Availability.EmptyGridRepeatsWeekly | cmd/helper.go:336-351 | days a week apart in the empty grid are equal |
| Availability.ThreeDayQueryWithClosedMiddleDay | cmd/helper.go:333-342 | a three-day query whose middle weekday is closed gives three days with the middle one nil |
| Availability.IsAbleToGetAvailableTimeOfFacility | cmd/helper.go:313-329 | a passing query has a positive day count, a finish within the horizon and a start not in the past; every rejection is an InputError |
| Availability.QueryCheckOrder | cmd/helper.go:313-329 | the order of the checks: inverted range, then the horizon measured to finish, then a past start; the query passes iff none applies |
| Availability.QueryToleratesUnderADay | cmd/helper.go:314-326 | a start under a day before now, with a finish under a day before the start, passes |
| Availability.MaskRow | cmd/helper.go:369-374 | a slot stays free iff it was free and its hour lies strictly between the request's start and finish hours |
| Availability.ApplyRequest | cmd/helper.go:358-375 | skipped when the request's weekday has no entry; panics iff the day-of-month index is outside the grid; otherwise touches only that row, masks it with the weekday's opening hour and never frees a busy slot |
| Availability.GenerateFacilityAvailabilityResult | cmd/helper.go:357-379 | the call panics iff some request on an open weekday has a row index outside the grid; otherwise the grid keeps its shape and no busy slot becomes free; requests on closed weekdays change nothing |
| Availability.OnlyClearsTransitive | cmd/helper.go:358 | composing two steps that only clear slots (keeping the shape) gives a step that only clears slots; the fold relies on it |
| Availability.OneHourRequestClearsTheDay | cmd/helper.go:370-372 | a one-hour request clears every slot of its row |
| Availability.MaskingIsInverted | cmd/helper.go:371 | over a free 09-17 day a 10-13 request leaves only 11 and 12 free; the intended rule frees all but 10, 11 and 12 |
| Availability.MaskRowIntended | cmd/helper.go:371 | the intended rule clears exactly the slots whose hour lies in the request's half-open window |
| Availability.CalendarRowHasRequestWeekday | cmd/helper.go:361-362 | the calendar-day row of a request has the request's weekday, so the opening hour used is the one that sized that row |
| Availability.ApplyRequestIntended | cmd/helper.go:358-375 | with the calendar row and the intended rule: never panics, touches only that row and clears exactly the request's hours there |
| Availability.GenerateAvailabilityIntended | cmd/helper.go:357-379 | the intended fold keeps the shape and never frees a busy slot |
| Availability.IntendedFoldFreeSlots | cmd/helper.go:357-379 | after the intended fold a slot is free iff it was free in the given grid and no request on an open weekday has that calendar row and covers that hour |
| Availability.MonthBoundaryDates | cmd/helper.go:361 | 2021-01-31 has day of month 31, and Monday 2021-02-01 has day of month 1 |
| Availability.MonthBoundaryPanics | cmd/helper.go:361-369 | a query from 2021-01-31 with a Monday 2021-02-01 request computes index -30 and panics; the calendar row is 1 |
| Authorization.HasPermission | cmd/helper.go:20-31 | fails iff the service call fails, then with PermissionError of the asked permission; otherwise the service's answer |
| Authorization.CreateTail | cmd/helper.go:98-118 | the first collected error wins; then a missing permission or a negative `hasEvent` answer denies with UPDATE_EVENT; then an overlap denies with AlreadyExist; admitted iff all hold and no overlap |
| Authorization.IsAbleToCreateFacilityRequest | cmd/helper.go:72-118 | a failed event lookup is returned; admitted iff the event exists, no error arrived, permission holds, `hasEvent` answers true and there is no overlap |
| Authorization.CreatePermissionBeatsOverlap | cmd/helper.go:110-118 | without permission and a true `hasEvent` answer the overlap result is irrelevant, an overlap always denies, and AlreadyExist is only reported to a caller holding both |
| Authorization.CreateOverlapStaysSending | cmd/helper.go:66-96 | along every run of the create path's goroutines, the overlap goroutine is still at its first send and main has not passed the overlap receive |
| Authorization.CreateNeverReturns | cmd/helper.go:66-100 | once the event exists, no run of the create path's goroutines reaches the drain or the return |
| Authorization.CreateGetsStuck | cmd/helper.go:66-96 | with a permission transport failure nothing can move; otherwise main takes the permission answer and then nothing can move |
| Authorization.IsAbleToCreateFacilityRequestAsWritten | cmd/helper.go:60-100 | the written create path never grants; it returns only when the event lookup fails |
| Authorization.CreateAsWrittenFollowsFromRendezvous | cmd/helper.go:60-100 | the written create path blocks exactly when the event exists and no run of its goroutines reaches the return |
| Authorization.CreateAsWrittenAgainstIntended | cmd/helper.go:60-118 | where the written path returns it agrees with the intended decision, and every intended grant blocks as written |
| Authorization.ApproveTail | cmd/helper.go:160-178 | the first collected error wins; then a missing UPDATE_FACILITY; then an overlap; admitted iff permitted and no overlap |
| Authorization.ApprovePermissionCheck | cmd/helper.go:132-147 | fails iff the facility is missing or the service call fails; true iff the facility exists and the service says yes |
| Authorization.IsAbleToApproveFacilityRequest | cmd/helper.go:122-179 | a missing request is returned; admitted iff the request exists, the permission check answers true and the overlap check answers false |
| Authorization.ApproveArrivalOrderIrrelevant | cmd/helper.go:149-166 | when neither store query fails with a driver error, the order in which the two checks' errors arrive never changes the verdict |
| Authorization.ReapprovalIsRefusedAsBooked | cmd/helper.go:150-176 | under the three-argument `IsOverlapTime` of the modelled store revision, approving an already approved non-empty request is refused as booked, because its own row overlaps |
| Authorization.IsAbleToRejectFacilityRequest | cmd/helper.go:182-203 | a missing request is returned; admitted iff the request exists and the facility's permission check answers true; a permission denial names UPDATE_FACILITY |
| Authorization.ApprovalImpliesRejection | cmd/helper.go:122-203 | whenever approval would be admitted, so would rejection |
| Authorization.HandlePermissionChannel | cmd/helper.go:205-225 | allowed iff either answer is true, whatever the arrival order; a denial always names UPDATE_EVENT |

## Left out

- Concurrency: the goroutines and channels of the `isAbleTo*` functions are
  replaced by "all results collected". The exception is the create path's
  blocking, modelled as a handshake of its goroutines (see "## Findings").
  The double `close` of its error channel is never reached as written, and
  is not modelled; the intended fix must remove it.
  Arrival order is a parameter (the `errors` sequence, `overlapErrorFirst`,
  `eventFirst`).
- Remote services: `hasPermission`, `hasEvent` and `getEvent` are parameters.
  They are either a reply (`Option<bool>`, where `None` is a transport
  failure) or the collected booleans. Only `hasPermission`'s error mapping is
  modelled.
- SQL text, the database connection, environment variables, `ping`, server
  startup and the integration tests are plumbing and are not modelled.
  `GetFacilityList` and `GetAvailableFacilityList` are plain listings with no
  logic.
- Store driver failures (the Internal-coded errors) are not modelled. Every
  query succeeds or reports not-found.
- The create path scans `rows.Next()` before checking the error, which would
  dereference a nil result on a driver failure. This is not modelled.
- `ConvertOperatingHoursModelToProto` is JSON decoding. It is the injected
  `HoursDecoder`. `GetFacilityInfo` returns the stored row rather than the
  decoded message.
- The view decisions (`isAbleToViewFacilityRequest*`) and
  `getFacilityInfoWithRequests` are concurrency around
  `HandlePermissionChannel`, which is modelled on its own.
- Floating point: `Hours()/24` with `math.Ceil` is modelled as exact integer
  ceiling division over seconds. `time.Time.Sub` saturates at about 292
  years, where the source's result stops at 106752 or -106751; the model's
  `Helper.DayDifference` keeps growing. The 30-day booking horizon keeps this
  out of reach of the booking checks.
- Sub-second precision: instants are whole seconds, while `time.Time`
  carries nanoseconds. With nanoseconds, any positive sub-second difference
  rounds up to 1 day. So the first assertion of
  `internal/helper/main_test.go` (two separate `time.Now()` readings must be
  0 days apart) only holds when both readings are equal.
  `Helper.SameInstantIsZero` states the equal case. Latitude and longitude are opaque bit patterns.
- Time zones and `time.Now()`: everything is UTC, and `now` is a parameter.
  `AddDate(0, 0, i)` is `i * 86400` seconds, which is exact in UTC.
- Revisions: `IsOverlapTime` is called with a fourth argument in
  `cmd/helper.go`. The three-argument version of `internal/database/main.go`
  is the one modelled, for all callers.
- Availability.CreateResultEmptyArray: requires `DayDifference + 1 >= 0`, and
  that the entry of every weekday the range visits opens no later than it
  closes. The source would panic in `make` otherwise. Its caller's query
  check ensures the first. Entries of unvisited weekdays are unconstrained
  (see `Availability.UnvisitedMalformedEntryIsHarmless`).
- Authorization.CreateTail: it is the tail as evidently intended. Only
  non-nil errors are collected, as on the approve path. The overlap
  goroutine's unconditional send of a nil error is left out on purpose; as
  written the path blocks before the tail (see "## Findings").
- Authorization.IsAbleToCreateFacilityRequest: its grants describe lines
  110-118 as intended. As written the source never grants a create; that
  behaviour is `Authorization.IsAbleToCreateFacilityRequestAsWritten`.
  Reaching a grant takes two fixes: send only non-nil errors on a buffered
  channel, and drop the second `close(errorChannel)` at line 108. Without
  the second fix, every call with no error panics there with "close of
  closed channel" (the first close is at line 98).
- Authorization.IsAbleToCreateFacilityRequest: `isEventOwner` is the answer
  of `hasEvent`, taken as given. The call at `cmd/helper.go:86` passes the user
  id where the declaration at `cmd/helper.go:34` takes the organization id,
  and the other way round. So the service is asked about swapped ids. The
  model does not see the ids, so it cannot show the effect.
- Availability.ApplyRequest: returns `None` for the index-out-of-range panic.
  It does not model the request times' `Hour()` beyond UTC.
- Authorization.HandlePermissionChannel: on allow it returns `Allowed`, not
  the meaningless zero permission the source returns alongside `true`.
- DatabaseHelper.CheckDateInput: its own contract states only that
  rejections are InputErrors. The full characterisation is stated by
  `CheckDateInputIsValidWindow` and `RejectionOrder`.
- Store.CreateFacilityRequest: the serial id is modelled as one more than the
  largest id in the table.

## Findings

| source | as written | input that shows it | evidently intended | confidence | as-written member | corrected member |
|---|---|---|---|---|---|---|
| internal/helper/main_test.go:51 | `DayDifference` rounds elapsed time up, so one second backwards gives 0 | start 2006-01-03 00:00:00, end 2006-01-02 23:59:59: result 0, test expects -1 | a signed count of calendar dates, antisymmetric | medium, not executed | Helper.TestRowExpectingMinusOneFails | Helper.CalendarDayDifferenceSatisfiesTestTable |
| internal/database/helper.go:109 | the same-day rule uses the ceiling, which is at least 1 for any finish after start | Monday 2021-01-04 10:00 to 11:00, open 09-17: rejected "Start and Finish must be the same day" | start and finish on one calendar date | medium, not executed | DatabaseHelper.CeilingRejectsForwardWindows | DatabaseHelper.CheckDateInputByCalendar |
| cmd/helper.go:371 | `item && h <= rs \|\| h >= rf` clears everything outside the request and keeps the request's inner hours | 09-17 day, request 10-13: free hours become 11 and 12 only | clear exactly the hours `rs <= h < rf` | high, not executed | Availability.MaskingIsInverted | Availability.MaskRowIntended |
| cmd/helper.go:361 | the row index is a difference of days of the month, which goes negative across a month boundary | query from 2021-01-31, approved request on 2021-02-01 10:00: index -30, out-of-range panic | whole calendar days from the query's start | high, not executed | Availability.MonthBoundaryPanics | Availability.ApplyRequestIntended |
| internal/database/main.go:208 | the overlap condition only tests whether either end of the candidate lies inside a stored window | approved 10:00-12:00, candidate 09:00-13:00: not counted | half-open interval intersection | medium, not executed | Store.ContainedBookingIsMissed | Store.IsOverlapTimeIntended |
| cmd/helper.go:68 | the overlap goroutine sends its error, nil included, on the unbuffered error channel, which is only read after that goroutine's later overlap answer | any create request whose event exists | send only non-nil errors on a buffered channel, as the approve path does, and drop the second `close(errorChannel)` at line 108 | high, not executed | Authorization.CreateNeverReturns | Authorization.IsAbleToCreateFacilityRequest |

About the first two rows: `internal/helper/main_test.go` belongs to another
revision of the helper package. So do the callers: `checkDateInput`
(`internal/database/helper.go:44`, `:109`, `:114`) calls an injected
`helper.DayDifferenceFunc` with `time.Time` values, a type
`internal/helper/main.go` does not define, and `cmd/helper.go:314-333`
also passes values. Both rows assume that revision's function is the
ceiling of `internal/helper/main.go:9`; if it is a calendar count, as that
revision's test expects, neither discrepancy arises. Hence "medium". The
test file passes `time.Time` values where `internal/helper/main.go:9` takes
pointers, and it tests a `TimeStampToText` that `internal/helper/main.go`
does not define. So it cannot compile against the modelled code, and its -1 is the authors' stated intent rather than an
observed failure. Its first assertion compares two separate `time.Now()`
readings. With nanosecond instants, any positive gap between them gives 1,
not 0 (see the sub-second line under "## Left out").

=== FILE: authorization.dfy ===
/** The admit/deny decisions of `cmd/helper.go`: once the concurrent checks
    have reported, each booking operation turns their results into one
    verdict with a fixed precedence (collected errors, then permission, then
    overlap). The remote services are parameters: a reply, or `None` for a
    transport failure. */
module Authorization {
  import opened Wrappers
  import opened Errors
  import opened Records
  import opened Store

  /** Admit, or deny with the error the operation returns. */
  datatype Verdict = Granted | Denied(error: CustomError)

  const BookedMessage: string := "Facility is booked at that time"

  /** `hasPermission`: the account service's answer, and any transport
      failure reported as a denial of the permission asked for. */
  function HasPermission(reply: Option<bool>, permission: Permission): (r: Result<bool, CustomError>)
    ensures r.Failure? <==> reply.None?
    ensures r.Failure? ==> r.error == PermissionError(permission) && ErrorCode(r.error) == PermissionDenied
    ensures r.Success? ==> r.value == reply.value
  {
    match reply
    case None => Failure(PermissionError(permission))
    case Some(isOk) => Success(isOk)
  }

  /** The tail of `isAbleToCreateFacilityRequest` as evidently intended (the
      written path blocks before it, see `CreateNeverReturns`), once every
      check has reported: `errors` holds the non-nil errors in the order they reached
      the error channel, and the first of them is returned. Then a missing
      permission or a negative `hasEvent` answer (`isEventOwner`) denies with
      `UPDATE_EVENT`, ahead of an overlap. The `hasEvent` call passes the user
      id and the organization id in swapped positions; its answer is taken
      as given. */
  function CreateTail(errors: seq<CustomError>, isPermission: bool, isEventOwner: bool, isTimeOverlap: bool): (v: Verdict)
    ensures |errors| > 0 ==> v == Denied(errors[0])
    ensures |errors| == 0 ==> (v == Granted <==> isPermission && isEventOwner && !isTimeOverlap)
    ensures |errors| == 0 && !(isPermission && isEventOwner) ==> v == Denied(PermissionError(UPDATE_EVENT))
    ensures |errors| == 0 && isPermission && isEventOwner && isTimeOverlap ==> v == Denied(AlreadyExistError(BookedMessage))
  {
    if |errors| > 0 then Denied(errors[0])
    else if !(isPermission && isEventOwner) then Denied(PermissionError(UPDATE_EVENT))
    else if isTimeOverlap then Denied(AlreadyExistError(BookedMessage))
    else Granted
  }

  /** `isAbleToCreateFacilityRequest` with its checks collected: the event is
      looked up first (`eventOrganization`, its failure ends the call);
      then the checks' results, with the errors in arrival order. */
  function IsAbleToCreateFacilityRequest(eventOrganization: Result<int, CustomError>, errors: seq<CustomError>,
                                         isPermission: bool, isEventOwner: bool, isTimeOverlap: bool): (v: Verdict)
    ensures eventOrganization.Failure? ==> v == Denied(eventOrganization.error)
    ensures v == Granted <==> eventOrganization.Success? && |errors| == 0 && isPermission && isEventOwner && !isTimeOverlap
  {
    match eventOrganization
    case Failure(err) => Denied(err)
    case Success(_) => CreateTail(errors, isPermission, isEventOwner, isTimeOverlap)
  }

  /** A denied permission or ownership is reported instead of an overlap, and
      an overlap is only ever reported to a caller holding both. */
  lemma CreatePermissionBeatsOverlap(isPermission: bool, isEventOwner: bool)
    ensures !(isPermission && isEventOwner) ==>
      CreateTail([], isPermission, isEventOwner, true) == CreateTail([], isPermission, isEventOwner, false)
    ensures CreateTail([], isPermission, isEventOwner, true).Denied?
    ensures CreateTail([], isPermission, isEventOwner, true).error.AlreadyExistError? ==> isPermission && isEventOwner
  {
  }

  /** Where each goroutine of the create path stands, as written. `main`
      receives the permission answer, then the overlap answer, then drains
      the error channel; the overlap goroutine first sends its error (nil
      included) and then its answer; the permission goroutine sends an error
      only on a transport failure, then its answer. Every channel is
      unbuffered, so a send completes only together with a receive. The
      ownership goroutine is left out: nothing receives from it before the
      drain. */
  datatype MainAt = AwaitPermission | AwaitOverlap | Draining | Returned
  datatype SenderAt = SendingError | SendingAnswer | Finished
  datatype CreateRendezvous = CreateRendezvous(main: MainAt, overlap: SenderAt, permission: SenderAt)

  /** The state once the event lookup has succeeded and the goroutines run. */
  function CreateStart(permissionFails: bool): CreateRendezvous
  {
    CreateRendezvous(AwaitPermission, SendingError, if permissionFails then SendingError else SendingAnswer)
  }

  /** The states one completed send (or the drain) leads to. */
  function CreateSteps(s: CreateRendezvous): set<CreateRendezvous>
  {
    (if s.permission == SendingError && s.main == Draining then {s.(permission := SendingAnswer)} else {})
    + (if s.permission == SendingAnswer && s.main == AwaitPermission
       then {s.(permission := Finished, main := AwaitOverlap)} else {})
    + (if s.overlap == SendingError && s.main == Draining then {s.(overlap := SendingAnswer)} else {})
    + (if s.overlap == SendingAnswer && s.main == AwaitOverlap
       then {s.(overlap := Finished, main := Draining)} else {})
    + (if s.main == Draining then {s.(main := Returned)} else {})
  }

  /** A sequence of states, each reached from the one before by a step. */
  predicate IsCreateRun(run: seq<CreateRendezvous>)
  {
    forall i :: 0 <= i < |run| - 1 ==> run[i + 1] in CreateSteps(run[i])
  }

  /** As written, once the event exists the create path never returns: the
      overlap goroutine's first send waits for the drain, and the drain waits
      for that goroutine's second send. Along any run from the start, `main`
      never reaches `Returned`. */
  lemma CreateNeverReturns(permissionFails: bool, run: seq<CreateRendezvous>)
    requires |run| > 0 && run[0] == CreateStart(permissionFails) && IsCreateRun(run)
    ensures forall i :: 0 <= i < |run| ==> run[i].main != Returned && run[i].main != Draining
  {
    CreateOverlapStaysSending(permissionFails, run);
  }

  /** Along any run the overlap goroutine is still at its first send. */
  lemma {:induction false} CreateOverlapStaysSending(permissionFails: bool, run: seq<CreateRendezvous>)
    requires |run| > 0 && run[0] == CreateStart(permissionFails) && IsCreateRun(run)
    ensures forall i :: 0 <= i < |run| ==> run[i].overlap == SendingError && run[i].main in {AwaitPermission, AwaitOverlap}
  {
    if |run| > 1 {
      var prefix := run[..|run| - 1];
      assert IsCreateRun(prefix) by {
        forall i | 0 <= i < |prefix| - 1 ensures prefix[i + 1] in CreateSteps(prefix[i]) {
          assert prefix[i + 1] == run[i + 1] && prefix[i] == run[i];
        }
      }
      CreateOverlapStaysSending(permissionFails, prefix);
      var last := run[|run| - 2];
      assert last == prefix[|prefix| - 1];
      assert run[|run| - 1] in CreateSteps(last);
    }
  }

  /** The create path gets stuck: with a transport failure nothing can move
      at all; otherwise `main` takes the permission answer and then nothing
      can move. */
  lemma CreateGetsStuck()
    ensures CreateSteps(CreateStart(true)) == {}
    ensures CreateSteps(CreateStart(false)) == {CreateRendezvous(AwaitOverlap, SendingError, Finished)}
    ensures CreateSteps(CreateRendezvous(AwaitOverlap, SendingError, Finished)) == {}
  {
  }

  /** `isAbleToCreateFacilityRequest` as written: a failed event lookup is
      returned; once the event exists the call never returns (`None`), as
      `CreateNeverReturns` shows. So it never grants a booking. */
  function IsAbleToCreateFacilityRequestAsWritten(eventOrganization: Result<int, CustomError>): (r: Option<Verdict>)
    ensures r != Some(Granted)
    ensures r.Some? <==> eventOrganization.Failure?
  {
    match eventOrganization
    case Failure(err) => Some(Denied(err))
    case Success(_) => None
  }

  /** Some run of the create path's goroutines reaches the return. */
  ghost predicate CreateReturns(permissionFails: bool)
  {
    exists run: seq<CreateRendezvous> :: IsCreateRun(run) && |run| > 0 && run[0] == CreateStart(permissionFails) && run[|run| - 1].main == Returned
  }

  /** `IsAbleToCreateFacilityRequestAsWritten` blocks exactly when the event
      exists and no run of the goroutines returns, whichever way the
      permission check goes. */
  lemma CreateAsWrittenFollowsFromRendezvous(eventOrganization: Result<int, CustomError>, permissionFails: bool)
    ensures IsAbleToCreateFacilityRequestAsWritten(eventOrganization).None?
            <==> (eventOrganization.Success? && !CreateReturns(permissionFails))
  {
    assert !CreateReturns(permissionFails) by {
      forall run: seq<CreateRendezvous> | IsCreateRun(run) && |run| > 0 && run[0] == CreateStart(permissionFails)
        ensures run[|run| - 1].main != Returned
      {
        CreateNeverReturns(permissionFails, run);
      }
    }
  }

  /** The written create path and the intended one agree wherever the
      written one returns, and every booking the intended one grants is a
      call that blocks as written. */
  lemma CreateAsWrittenAgainstIntended(eventOrganization: Result<int, CustomError>, errors: seq<CustomError>,
                                       isPermission: bool, isEventOwner: bool, isTimeOverlap: bool)
    ensures var written := IsAbleToCreateFacilityRequestAsWritten(eventOrganization);
      var intended := IsAbleToCreateFacilityRequest(eventOrganization, errors, isPermission, isEventOwner, isTimeOverlap);
      && (written.Some? ==> written.value == intended)
      && (intended == Granted ==> written.None?)
  {
  }

  /** The tail of `isAbleToApproveFacilityRequest`: the first collected error,
      then a missing `UPDATE_FACILITY`, then an overlap. */
  function ApproveTail(errors: seq<CustomError>, isPermission: bool, isTimeOverlap: bool): (v: Verdict)
    ensures |errors| > 0 ==> v == Denied(errors[0])
    ensures |errors| == 0 ==> (v == Granted <==> isPermission && !isTimeOverlap)
    ensures |errors| == 0 && !isPermission ==> v == Denied(PermissionError(UPDATE_FACILITY))
    ensures |errors| == 0 && isPermission && isTimeOverlap ==> v == Denied(AlreadyExistError(BookedMessage))
  {
    if |errors| > 0 then Denied(errors[0])
    else if !isPermission then Denied(PermissionError(UPDATE_FACILITY))
    else if isTimeOverlap then Denied(AlreadyExistError(BookedMessage))
    else Granted
  }

  /** The error, if any, of a check, as an error-channel contribution. */
  function Sent(err: Option<CustomError>): seq<CustomError>
  {
    if err.Some? then [err.value] else []
  }

  /** What the permission goroutine of the approval reports: the facility
      lookup's error, or the permission check's, or the answer. */
  function ApprovePermissionCheck(db: Db, facilityId: int, accountReply: int -> Option<bool>): (r: Result<bool, CustomError>)
    ensures r.Failure? <==> (GetFacilityInfo(db, facilityId).Failure? ||
      accountReply(GetFacilityInfo(db, facilityId).value.organizationId).None?)
    ensures r == Success(true) <==> (GetFacilityInfo(db, facilityId).Success? &&
      accountReply(GetFacilityInfo(db, facilityId).value.organizationId) == Some(true))
  {
    match GetFacilityInfo(db, facilityId)
    case Failure(err) => Failure(err)
    case Success(facility) => HasPermission(accountReply(facility.organizationId), UPDATE_FACILITY)
  }

  /** `isAbleToApproveFacilityRequest` over the store: the request is fetched
      first; then the permission check and the overlap check both report;
      `overlapErrorFirst` says whose error reached the channel first. A
      failing check reports `false` permission or `true` overlap. */
  function IsAbleToApproveFacilityRequest(db: Db, requestId: int, accountReply: int -> Option<bool>,
                                          overlapErrorFirst: bool): (v: Verdict)
    ensures GetFacilityRequest(db, requestId).Failure? ==> v == Denied(GetFacilityRequest(db, requestId).error)
    ensures v == Granted <==>
      && GetFacilityRequest(db, requestId).Success?
      && var req := GetFacilityRequest(db, requestId).value;
      && ApprovePermissionCheck(db, req.facilityId, accountReply) == Success(true)
      && IsOverlapTime(db, req.facilityId, req.start, req.finish) == Success(false)
  {
    match GetFacilityRequest(db, requestId)
    case Failure(err) => Denied(err)
    case Success(req) =>
      var permission := ApprovePermissionCheck(db, req.facilityId, accountReply);
      var overlap := IsOverlapTime(db, req.facilityId, req.start, req.finish);
      var permissionError := if permission.Failure? then Some(permission.error) else None;
      var overlapError := if overlap.Failure? then Some(overlap.error) else None;
      var errors := if overlapErrorFirst then Sent(overlapError) + Sent(permissionError)
                    else Sent(permissionError) + Sent(overlapError);
      ApproveTail(errors, permission == Success(true), overlap.Failure? || overlap.value)
  }

  /** When neither store query fails with a driver error (the modelled
      store has none), which goroutine's error arrives first never changes
      the verdict: the overlap check fails only when the facility is missing,
      and then the permission check fails with the very same error. */
  lemma ApproveArrivalOrderIrrelevant(db: Db, requestId: int, accountReply: int -> Option<bool>)
    ensures IsAbleToApproveFacilityRequest(db, requestId, accountReply, true)
         == IsAbleToApproveFacilityRequest(db, requestId, accountReply, false)
  {
    var r := GetFacilityRequest(db, requestId);
    if r.Success? {
      var req := r.value;
      var facility := GetFacilityInfo(db, req.facilityId);
      var overlap := IsOverlapTime(db, req.facilityId, req.start, req.finish);
      if facility.Failure? {
        assert overlap.Failure? && overlap.error == facility.error;
        assert ApprovePermissionCheck(db, req.facilityId, accountReply) == Failure(facility.error);
      } else {
        assert overlap.Success?;
      }
    }
  }

  /** Approving an already approved, non-empty request is refused as a
      booking clash: the overlap check counts the request's own row. */
  lemma ReapprovalIsRefusedAsBooked(db: Db, requestId: int, facilityId: int, accountReply: int -> Option<bool>,
                                    overlapErrorFirst: bool, i: int)
    requires 0 <= i < |db.requests| && db.requests[i].id == requestId
    requires forall j :: 0 <= j < |db.requests| && db.requests[j].id == requestId ==>
      && db.requests[j].status == APPROVED
      && db.requests[j].facilityId == facilityId
      && db.requests[j].start < db.requests[j].finish
    requires GetFacilityInfo(db, facilityId).Success?
    requires accountReply(GetFacilityInfo(db, facilityId).value.organizationId) == Some(true)
    ensures IsAbleToApproveFacilityRequest(db, requestId, accountReply, overlapErrorFirst)
         == Denied(AlreadyExistError(BookedMessage))
  {
    var req := GetFacilityRequest(db, requestId).value;
    var k :| 0 <= k < |db.requests| && DatabaseHelper.ConvertFacilityRequestModelToProto(db.requests[k]) == req;
    assert db.requests[k].id == requestId;
    assert Conflicts(req.facilityId, req.start, req.finish, db.requests[k]);
  }

  /** `isAbleToRejectFacilityRequest`: request, then facility, then the
      `UPDATE_FACILITY` check, each failure returned as it comes. */
  function IsAbleToRejectFacilityRequest(db: Db, requestId: int, accountReply: int -> Option<bool>): (v: Verdict)
    ensures GetFacilityRequest(db, requestId).Failure? ==> v == Denied(GetFacilityRequest(db, requestId).error)
    ensures v == Granted <==>
      && GetFacilityRequest(db, requestId).Success?
      && ApprovePermissionCheck(db, GetFacilityRequest(db, requestId).value.facilityId, accountReply) == Success(true)
    ensures v.Denied? && v.error.PermissionError? ==> v.error.permission == UPDATE_FACILITY
  {
    match GetFacilityRequest(db, requestId)
    case Failure(err) => Denied(err)
    case Success(req) =>
      match GetFacilityInfo(db, req.facilityId)
      case Failure(err) => Denied(err)
      case Success(facility) =>
        match HasPermission(accountReply(facility.organizationId), UPDATE_FACILITY)
        case Failure(err) => Denied(err)
        case Success(isPermission) =>
          if !isPermission then Denied(PermissionError(UPDATE_FACILITY)) else Granted
  }

  /** Rejection asks nothing of the stored window: whenever approval is
      granted, so is rejection, but not conversely. */
  lemma ApprovalImpliesRejection(db: Db, requestId: int, accountReply: int -> Option<bool>, overlapErrorFirst: bool)
    ensures IsAbleToApproveFacilityRequest(db, requestId, accountReply, overlapErrorFirst) == Granted ==>
      IsAbleToRejectFacilityRequest(db, requestId, accountReply) == Granted
  {
  }

  /** The result of `handlePermissionChannel`: allowed, or denied naming the
      permission to report. */
  datatype PermissionCheck = Allowed | Lacking(permission: Permission)

  /** `handlePermissionChannel` over an explicit arrival order: `eventFirst`
      says which of the two answers the `select` receives first. A true answer
      ends the wait at once. The variable read after the loop is the outer
      `isPermissionEvent`, which the `select` case shadows and so never
      assigns: a denial always names `UPDATE_EVENT`. */
  method HandlePermissionChannel(eventFirst: bool, permissionEvent: bool, permissionFacility: bool)
    returns (r: PermissionCheck)
    ensures r == Allowed <==> permissionEvent || permissionFacility
    ensures r != Allowed ==> r == Lacking(UPDATE_EVENT)
  {
    var isPermissionEvent := false;
    var arrival := if eventFirst then [true, false] else [false, true];
    var i := 0;
    while i < 2
      invariant 0 <= i <= 2
      invariant forall k :: 0 <= k < i ==> !(if arrival[k] then permissionEvent else permissionFacility)
      invariant !isPermissionEvent
    {
      if arrival[i] {
        var isPermissionEvent := permissionEvent;
        if isPermissionEvent {
          return Allowed;
        }
      } else {
        var isPermissionFacility := permissionFacility;
        if isPermissionFacility {
          return Allowed;
        }
      }
      i := i + 1;
    }
    assert !permissionEvent && !permissionFacility by {
      assert !(if arrival[0] then permissionEvent else permissionFacility);
      assert !(if arrival[1] then permissionEvent else permissionFacility);
    }
    if !isPermissionEvent {
      return Lacking(UPDATE_EVENT);
    }
    return Lacking(UPDATE_FACILITY);
  }
}

=== FILE: availability.dfy ===
/** The availability grid of `cmd/helper.go`: one entry per day of the
    queried range, each either nil (no operating hours that weekday) or one
    boolean per opening hour, true = free; then the approved requests are
    masked into it. */
module Availability {
  import opened Wrappers
  import opened Errors
  import opened Clock
  import opened Records
  import opened Helper
  import DatabaseHelper

  /** Operating hours keyed by weekday number (Sunday = 0). */
  type HoursByWeekday = map<int, OperatingHour>

  /** One day of the grid: `None` is a nil `Items` slice. */
  type Day = Option<seq<bool>>

  type Grid = seq<Day>

  /** Day `i` of a range starting at `start`: `startTime.AddDate(0, 0, i)`,
      which in UTC is exactly `i` days later. */
  function DayStart(start: Instant, i: int): Instant
  {
    start + i * SecondsPerDay
  }

  /** The entry for `t`'s weekday, if any, opens no later than it closes (a
      negative slot count would make `make([]bool, hour)` panic). */
  predicate OpensBeforeCloses(t: Instant, hours: HoursByWeekday)
  {
    Weekday(t) in hours ==> hours[Weekday(t)].startHour <= hours[Weekday(t)].finishHour
  }

  /** The range has a non-negative day count, and every weekday it visits
      has a well-formed entry or none. Entries of weekdays the range never
      reaches are not looked at. */
  predicate VisitedHoursWellFormed(start: Instant, finish: Instant, hours: HoursByWeekday)
  {
    && DayDifference(start, finish) + 1 >= 0
    && forall i :: 0 <= i <= DayDifference(start, finish) ==> OpensBeforeCloses(DayStart(start, i), hours)
  }

  /** The day of the empty grid for the day containing `t`. */
  function EmptyDay(t: Instant, hours: HoursByWeekday): Day
    requires OpensBeforeCloses(t, hours)
  {
    var wd := Weekday(t);
    if wd !in hours then None
    else Some(seq(hours[wd].finishHour - hours[wd].startHour, _ => true))
  }

  /** `createResultEmptyArray`: `DayDifference(start, finish) + 1` days; day
      `i` (that is, `start` plus `i` days) is nil iff its weekday has no entry,
      and otherwise all free with one slot per opening hour. */
  function CreateResultEmptyArray(start: Instant, finish: Instant, hours: HoursByWeekday): (r: Grid)
    requires VisitedHoursWellFormed(start, finish, hours)
    ensures |r| == DayDifference(start, finish) + 1
    ensures forall i :: 0 <= i < |r| ==> (r[i].None? <==> Weekday(start + i * SecondsPerDay) !in hours)
    ensures forall i :: 0 <= i < |r| && r[i].Some? ==>
      var entry := hours[Weekday(start + i * SecondsPerDay)];
      |r[i].value| == entry.finishHour - entry.startHour && forall j :: 0 <= j < |r[i].value| ==> r[i].value[j]
  {
    seq(DayDifference(start, finish) + 1, i requires 0 <= i <= DayDifference(start, finish) => EmptyDay(DayStart(start, i), hours))
  }

  /** A malformed entry on a weekday the range never visits does not stop the
      grid from being built: a query from Sunday midnight to Sunday noon, with
      Wednesday's entry opening at 18 and closing at 10, gives a Sunday of 8
      free hours and a nil Monday (the ceiling counts two days). */
  lemma UnvisitedMalformedEntryIsHarmless(day: int)
    requires Weekday(OnDay(day, 0, 0, 0)) == 0
    ensures var hours := map[0 := OperatingHour(0, 9, 17), 3 := OperatingHour(3, 18, 10)];
      && !(hours[3].startHour <= hours[3].finishHour)
      && VisitedHoursWellFormed(OnDay(day, 0, 0, 0), OnDay(day, 12, 0, 0), hours)
      && CreateResultEmptyArray(OnDay(day, 0, 0, 0), OnDay(day, 12, 0, 0), hours) == [Some(seq(8, _ => true)), None]
  {
    var hours := map[0 := OperatingHour(0, 9, 17), 3 := OperatingHour(3, 18, 10)];
    var start, finish := OnDay(day, 0, 0, 0), OnDay(day, 12, 0, 0);
    assert finish - start == 12 * SecondsPerHour;
    assert DayDifference(start, finish) == 1;
    WeekdayAfterDays(start, 1);
    var grid := CreateResultEmptyArray(start, finish, hours);
    assert grid[0] == Some(seq(8, _ => true));
    assert grid[1] == None;
  }

  /** The weekday advances by one with each day. */
  lemma WeekdayAfterDays(t: Instant, i: int)
    ensures Weekday(t + i * SecondsPerDay) == (Weekday(t) + i) % 7
  {
    assert EpochDay(t + i * SecondsPerDay) == EpochDay(t) + i;
  }

  /** The empty grid repeats weekly: days a week apart are equal. */
  lemma EmptyGridRepeatsWeekly(start: Instant, finish: Instant, hours: HoursByWeekday, i: int)
    requires VisitedHoursWellFormed(start, finish, hours)
    requires 0 <= i && i + 7 < DayDifference(start, finish) + 1
    ensures CreateResultEmptyArray(start, finish, hours)[i] == CreateResultEmptyArray(start, finish, hours)[i + 7]
  {
    var a, b := DayStart(start, i), DayStart(start, i + 7);
    assert b == a + 7 * SecondsPerDay;
    assert EpochDay(b) == EpochDay(a) + 7;
    assert Weekday(b) == Weekday(a);
  }

  /** A three-day query from midnight whose middle weekday is closed gives
      three days, the middle one nil and the others all free. */
  lemma ThreeDayQueryWithClosedMiddleDay(day: int, hours: HoursByWeekday)
    requires VisitedHoursWellFormed(OnDay(day, 0, 0, 0), OnDay(day + 2, 0, 0, 0), hours)
    requires Weekday(OnDay(day, 0, 0, 0)) in hours && Weekday(OnDay(day + 2, 0, 0, 0)) in hours
    requires Weekday(OnDay(day + 1, 0, 0, 0)) !in hours
    ensures var g := CreateResultEmptyArray(OnDay(day, 0, 0, 0), OnDay(day + 2, 0, 0, 0), hours);
      |g| == 3 && g[0].Some? && g[1].None? && g[2].Some?
  {
    assert OnDay(day, 0, 0, 0) + SecondsPerDay == OnDay(day + 1, 0, 0, 0);
    assert OnDay(day, 0, 0, 0) + 2 * SecondsPerDay == OnDay(day + 2, 0, 0, 0);
  }

  /** `isAbleToGetAvailableTimeOfFacility` with the clock reading `now`. */
  function IsAbleToGetAvailableTimeOfFacility(start: Instant, finish: Instant, now: Instant): (r: Option<CustomError>)
    ensures r.None? ==> DayDifference(start, finish) + 1 > 0 && DayDifference(now, finish) < 30 && 0 <= DayDifference(now, start)
    ensures r.Some? ==> r.value.InputError?
  {
    if DayDifference(start, finish) + 1 <= 0 then Some(InputError(DatabaseHelper.OrderMessage))
    else if DayDifference(now, finish) >= 30 then Some(InputError(DatabaseHelper.HorizonMessage))
    else
      var dayDifference := DayDifference(now, start);
      if dayDifference < 0 then Some(InputError(DatabaseHelper.PastMessage))
      else None
  }

  /** The query checks run in order: an inverted range first, then the
      horizon measured to `finish`, then a start in the past; the query
      passes exactly when none of the three applies. */
  lemma QueryCheckOrder(start: Instant, finish: Instant, now: Instant)
    ensures var r := IsAbleToGetAvailableTimeOfFacility(start, finish, now);
      && (finish <= start - SecondsPerDay ==> r == Some(InputError(DatabaseHelper.OrderMessage)))
      && (finish > start - SecondsPerDay && DayDifference(now, finish) >= 30 ==> r == Some(InputError(DatabaseHelper.HorizonMessage)))
      && (finish > start - SecondsPerDay && DayDifference(now, finish) < 30 && start <= now - SecondsPerDay
          ==> r == Some(InputError(DatabaseHelper.PastMessage)))
      && (r.None? <==> finish > start - SecondsPerDay && DayDifference(now, finish) < 30 && start > now - SecondsPerDay)
  {
  }

  /** Because the day count is a ceiling, a start less than a day before
      `now` is not "in the past", and a finish up to a day before the start
      is not an inverted range. */
  lemma QueryToleratesUnderADay(now: Instant)
    ensures IsAbleToGetAvailableTimeOfFacility(now - SecondsPerDay + 1, now - 2 * SecondsPerDay + 2, now).None?
  {
  }

  /** The masking rule of `generateFacilityAvailabilityResult`, slot by slot:
      slot `i` stands for hour `opening + i` and is cleared when
      `item && currentHour <= requestStartHour || currentHour >= requestFinishHour`.
      Its effect: a slot stays free only if it was free and its hour lies
      strictly between the request's start and finish hours. */
  function MaskRow(items: seq<bool>, opening: int, requestStartHour: int, requestFinishHour: int): (r: seq<bool>)
    ensures |r| == |items|
    ensures forall i :: 0 <= i < |items| ==>
      r[i] == (items[i] && requestStartHour < opening + i < requestFinishHour)
  {
    seq(|items|, i requires 0 <= i < |items| =>
      var currentHour := opening + i;
      if (items[i] && currentHour <= requestStartHour) || currentHour >= requestFinishHour then false
      else items[i])
  }

  /** `g'` has the days of `g`, with the same nil days and slot counts. */
  predicate SameShape(g: Grid, g': Grid)
  {
    && |g| == |g'|
    && forall k :: 0 <= k < |g| ==> (g[k].None? <==> g'[k].None?) && (g[k].Some? ==> |g[k].value| == |g'[k].value|)
  }

  /** `g'` has the shape of `g` and no busy slot of `g` is free in `g'`. */
  predicate OnlyClears(g: Grid, g': Grid)
  {
    && SameShape(g, g')
    && forall k, j :: 0 <= k < |g| && g[k].Some? && 0 <= j < |g[k].value| && !g[k].value[j] ==> !g'[k].value[j]
  }

  /** The row `generateFacilityAvailabilityResult` writes a request into:
      day of the month of the request's start minus that of the query's start. */
  function RowIndex(start: Instant, req: FacilityRequest): int
  {
    DayOfMonth(req.start) - DayOfMonth(start)
  }

  /** One iteration of `generateFacilityAvailabilityResult`. A request whose
      weekday has no entry is skipped; otherwise indexing outside the grid
      panics (`None`); otherwise the located row, if not nil, is masked with
      the opening hour of the request's weekday. */
  function ApplyRequest(grid: Grid, start: Instant, hours: HoursByWeekday, req: FacilityRequest): (r: Option<Grid>)
    ensures Weekday(req.start) !in hours ==> r == Some(grid)
    ensures r.None? <==> Weekday(req.start) in hours && !(0 <= RowIndex(start, req) < |grid|)
    ensures r.Some? ==> OnlyClears(grid, r.value)
    ensures r.Some? ==> forall k :: 0 <= k < |grid| && k != RowIndex(start, req) ==> r.value[k] == grid[k]
    ensures r.Some? && Weekday(req.start) in hours && grid[RowIndex(start, req)].Some? ==>
      var items := grid[RowIndex(start, req)].value;
      var opening := hours[Weekday(req.start)].startHour;
      forall i :: 0 <= i < |items| ==>
        r.value[RowIndex(start, req)].value[i] == (items[i] && Hour(req.start) < opening + i < Hour(req.finish))
  {
    var index := RowIndex(start, req);
    var wd := Weekday(req.start);
    if wd !in hours then Some(grid)
    else if !(0 <= index < |grid|) then None
    else match grid[index]
      case None => Some(grid)
      case Some(items) =>
        Some(grid[index := Some(MaskRow(items, hours[wd].startHour, Hour(req.start), Hour(req.finish)))])
  }

  /** `generateFacilityAvailabilityResult`: apply the requests in order; a
      panic on any of them is a panic of the whole call. The call panics
      exactly when some request on an open weekday has a row index outside
      the grid; otherwise the grid keeps its shape and no busy slot becomes
      free. */
  function GenerateFacilityAvailabilityResult(grid: Grid, start: Instant, hours: HoursByWeekday,
                                              requests: seq<FacilityRequest>): (r: Option<Grid>)
    ensures r.None? <==> exists i :: 0 <= i < |requests| && Weekday(requests[i].start) in hours
                                     && !(0 <= RowIndex(start, requests[i]) < |grid|)
    ensures r.Some? ==> OnlyClears(grid, r.value)
    ensures (forall i :: 0 <= i < |requests| ==> Weekday(requests[i].start) !in hours) ==> r == Some(grid)
    decreases |requests|
  {
    if |requests| == 0 then Some(grid)
    else match ApplyRequest(grid, start, hours, requests[0])
      case None => None
      case Some(g) =>
        var rest := GenerateFacilityAvailabilityResult(g, start, hours, requests[1..]);
        assert forall i :: 1 <= i < |requests| ==> requests[i] == requests[1..][i - 1];
        if rest.Some? then OnlyClearsTransitive(grid, g, rest.value); rest else rest
  }

  /** Clearing twice is clearing. */
  lemma OnlyClearsTransitive(g1: Grid, g2: Grid, g3: Grid)
    requires OnlyClears(g1, g2) && OnlyClears(g2, g3)
    ensures OnlyClears(g1, g3)
  {
  }

  /** A one-hour request clears its whole day: no hour lies strictly between
      its start and finish hours. */
  lemma OneHourRequestClearsTheDay(items: seq<bool>, opening: int, h: int)
    ensures var r := MaskRow(items, opening, h, h + 1);
      |r| == |items| && forall i :: 0 <= i < |r| ==> !r[i]
  {
  }

  /** Over a free day open 09 to 17, a 10:00 to 13:00 request leaves exactly
      11:00 and 12:00 free, the hours the request occupies, while the intended
      rule leaves every other hour free and clears 10, 11 and 12. */
  lemma MaskingIsInverted()
    ensures MaskRow(seq(8, _ => true), 9, 10, 13) == [false, false, true, true, false, false, false, false]
    ensures MaskRowIntended(seq(8, _ => true), 9, 10, 13) == [true, false, false, false, true, true, true, true]
  {
  }

  /** The evidently intended masking: clear exactly the slots whose hour lies
      in the half-open request window `[requestStartHour, requestFinishHour)`. */
  function MaskRowIntended(items: seq<bool>, opening: int, requestStartHour: int, requestFinishHour: int): (r: seq<bool>)
    ensures |r| == |items|
    ensures forall i :: 0 <= i < |items| ==>
      r[i] == (items[i] && !(requestStartHour <= opening + i < requestFinishHour))
  {
    seq(|items|, i requires 0 <= i < |items| =>
      var currentHour := opening + i;
      if requestStartHour <= currentHour < requestFinishHour then false else items[i])
  }

  /** The evidently intended row of a request: whole calendar days from the
      query's start to the request's start. */
  function CalendarRowIndex(start: Instant, req: FacilityRequest): int
  {
    CalendarDayDifference(start, req.start)
  }

  /** The calendar row of a request is the day of the empty grid with the
      request's weekday, so its operating hour is the one that sized the row. */
  lemma CalendarRowHasRequestWeekday(start: Instant, req: FacilityRequest)
    ensures Weekday(start + CalendarRowIndex(start, req) * SecondsPerDay) == Weekday(req.start)
  {
    var k := CalendarRowIndex(start, req);
    assert EpochDay(start + k * SecondsPerDay) == EpochDay(start) + k;
  }

  /** One request applied the intended way: the request's calendar row (if
      inside the grid and not nil) loses exactly the hours the request
      occupies; every other row is unchanged; nothing panics. */
  function ApplyRequestIntended(grid: Grid, start: Instant, hours: HoursByWeekday, req: FacilityRequest): (r: Grid)
    ensures OnlyClears(grid, r)
    ensures forall k :: 0 <= k < |grid| && k != CalendarRowIndex(start, req) ==> r[k] == grid[k]
    ensures Weekday(req.start) in hours && 0 <= CalendarRowIndex(start, req) < |grid| && grid[CalendarRowIndex(start, req)].Some? ==>
      var k := CalendarRowIndex(start, req);
      var opening := hours[Weekday(req.start)].startHour;
      forall i :: 0 <= i < |grid[k].value| ==>
        r[k].value[i] == (grid[k].value[i] && !(Hour(req.start) <= opening + i < Hour(req.finish)))
  {
    var index := CalendarRowIndex(start, req);
    var wd := Weekday(req.start);
    if wd !in hours || !(0 <= index < |grid|) then grid
    else match grid[index]
      case None => grid
      case Some(items) =>
        grid[index := Some(MaskRowIntended(items, hours[wd].startHour, Hour(req.start), Hour(req.finish)))]
  }

  /** All requests applied the intended way. */
  function GenerateAvailabilityIntended(grid: Grid, start: Instant, hours: HoursByWeekday,
                                        requests: seq<FacilityRequest>): (r: Grid)
    ensures OnlyClears(grid, r)
    decreases |requests|
  {
    if |requests| == 0 then grid
    else
      var g := ApplyRequestIntended(grid, start, hours, requests[0]);
      var rest := GenerateAvailabilityIntended(g, start, hours, requests[1..]);
      OnlyClearsTransitive(grid, g, rest);
      rest
  }

  /** Request `req` occupies slot `j` of row `k` the intended way: its
      weekday is open, its calendar row is `k`, and the slot's hour lies in
      its half-open window. */
  predicate Covers(start: Instant, hours: HoursByWeekday, req: FacilityRequest, k: int, j: int)
  {
    && Weekday(req.start) in hours
    && CalendarRowIndex(start, req) == k
    && Hour(req.start) <= hours[Weekday(req.start)].startHour + j < Hour(req.finish)
  }

  /** What the intended fold computes: a slot is free afterwards iff it was
      free in the empty grid and no request covers it. So every hour of
      every request on an open weekday ends up busy, and nothing else is
      cleared. */
  lemma {:induction false} IntendedFoldFreeSlots(grid: Grid, start: Instant, hours: HoursByWeekday,
                                                 requests: seq<FacilityRequest>, k: int, j: int)
    requires 0 <= k < |grid| && grid[k].Some? && 0 <= j < |grid[k].value|
    ensures var r := GenerateAvailabilityIntended(grid, start, hours, requests);
      r[k].value[j] == (grid[k].value[j] && forall i :: 0 <= i < |requests| ==> !Covers(start, hours, requests[i], k, j))
    decreases |requests|
  {
    if |requests| > 0 {
      var g := ApplyRequestIntended(grid, start, hours, requests[0]);
      assert g[k].Some? && |g[k].value| == |grid[k].value|;
      assert g[k].value[j] == (grid[k].value[j] && !Covers(start, hours, requests[0], k, j));
      IntendedFoldFreeSlots(g, start, hours, requests[1..], k, j);
      assert forall i :: 1 <= i < |requests| ==> requests[i] == requests[1..][i - 1];
    }
  }

  /** The day numbers of 2021-01-31 (a Sunday) and 2021-02-01 (a Monday), and
      their days of the month. */
  lemma MonthBoundaryDates()
    ensures DayOfMonth(OnDay(18658, 0, 0, 0)) == 31
    ensures DayOfMonth(OnDay(18659, 10, 0, 0)) == 1
    ensures Weekday(OnDay(18659, 10, 0, 0)) == 1
  {
    OnDayReadsBack(18658, 0, 0, 0);
    OnDayReadsBack(18659, 10, 0, 0);
    LastOfJanuary2021();
    FirstOfFebruary2021();
  }

  /** Day 18658 is 2021-01-31: each step of the civil-date computation. */
  lemma LastOfJanuary2021()
    ensures CivilFromDays(18658) == Date(2021, 1, 31)
  {
    assert 18658 + 719468 == 738126;
    assert 738126 / 146097 == 5;
    assert 738126 - 5 * 146097 == 7641;
    assert 7641 / 1460 == 5 && 7641 / 36524 == 0 && 7641 / 146096 == 0;
    assert (7641 - 5 + 0 - 0) / 365 == 20;
    assert 20 / 4 == 5 && 20 / 100 == 0;
    assert 7641 - (365 * 20 + 5 - 0) == 336;
    assert (5 * 336 + 2) / 153 == 10;
    assert (153 * 10 + 2) / 5 == 306;
  }

  /** Day 18659 is 2021-02-01: each step of the civil-date computation. */
  lemma FirstOfFebruary2021()
    ensures CivilFromDays(18659) == Date(2021, 2, 1)
  {
    assert 18659 + 719468 == 738127;
    assert 738127 / 146097 == 5;
    assert 738127 - 5 * 146097 == 7642;
    assert 7642 / 1460 == 5 && 7642 / 36524 == 0 && 7642 / 146096 == 0;
    assert (7642 - 5 + 0 - 0) / 365 == 20;
    assert 20 / 4 == 5 && 20 / 100 == 0;
    assert 7642 - (365 * 20 + 5 - 0) == 337;
    assert (5 * 337 + 2) / 153 == 11;
    assert (153 * 11 + 2) / 5 == 337;
  }

  /** A query from Sunday 2021-01-31 to Monday 2021-02-01 with an approved
      Monday 10:00 to 11:00 request: the day-of-month row index is 1 - 31 =
      -30 and the call panics, while the calendar row is 1. */
  lemma MonthBoundaryPanics(hours: HoursByWeekday, req: FacilityRequest)
    requires VisitedHoursWellFormed(OnDay(18658, 0, 0, 0), OnDay(18659, 0, 0, 0), hours) && 1 in hours
    requires req.start == OnDay(18659, 10, 0, 0) && req.finish == OnDay(18659, 11, 0, 0)
    ensures var grid := CreateResultEmptyArray(OnDay(18658, 0, 0, 0), OnDay(18659, 0, 0, 0), hours);
      && |grid| == 2
      && RowIndex(OnDay(18658, 0, 0, 0), req) == -30
      && GenerateFacilityAvailabilityResult(grid, OnDay(18658, 0, 0, 0), hours, [req]).None?
      && CalendarRowIndex(OnDay(18658, 0, 0, 0), req) == 1
  {
    MonthBoundaryDates();
    OnDayReadsBack(18659, 10, 0, 0);
    var start := OnDay(18658, 0, 0, 0);
    assert DayDifference(start, OnDay(18659, 0, 0, 0)) == 1;
    var grid := CreateResultEmptyArray(start, OnDay(18659, 0, 0, 0), hours);
    assert ApplyRequest(grid, start, hours, req).None?;
  }
}

=== FILE: clock.dfy ===
/** Instants written as whole seconds since 1970-01-01T00:00:00 UTC, and the
    fields of Go's `time.Time` the service reads from them (hour, minute,
    second, weekday, day of month), all in UTC. */
module Clock {

  /** Whole seconds since the Unix epoch, UTC. */
  type Instant = int

  const SecondsPerMinute: int := 60
  const SecondsPerHour: int := 3600
  const SecondsPerDay: int := 86400

  /** Days since 1970-01-01, rounded towards minus infinity (Dafny's `/` is
      Euclidean, which for a positive divisor is the floor). */
  function EpochDay(t: Instant): int
  {
    t / SecondsPerDay
  }

  /** `t.Hour()`. */
  function Hour(t: Instant): (h: int)
    ensures 0 <= h < 24
  {
    (t % SecondsPerDay) / SecondsPerHour
  }

  /** `t.Minute()`. */
  function Minute(t: Instant): (m: int)
    ensures 0 <= m < 60
  {
    (t % SecondsPerHour) / SecondsPerMinute
  }

  /** `t.Second()`. */
  function Second(t: Instant): (s: int)
    ensures 0 <= s < 60
  {
    t % SecondsPerMinute
  }

  /** `t.Weekday()` with Sunday = 0; 1970-01-01 was a Thursday. */
  function Weekday(t: Instant): (w: int)
    ensures 0 <= w < 7
  {
    (EpochDay(t) + 4) % 7
  }

  /** The clock fields determine the instant within its day. */
  lemma ClockFieldsSplitTheDay(t: Instant)
    ensures t == EpochDay(t) * SecondsPerDay + Hour(t) * SecondsPerHour + Minute(t) * SecondsPerMinute + Second(t)
  {
    var d, r := t / SecondsPerDay, t % SecondsPerDay;
    var h, r1 := r / SecondsPerHour, r % SecondsPerHour;
    var m, s := r1 / SecondsPerMinute, r1 % SecondsPerMinute;
    DivisionBy(t, d * 24 + h, r1, SecondsPerHour);
    DivisionBy(t, d * 1440 + h * 60 + m, s, SecondsPerMinute);
  }

  /** Euclidean division by one of the constants of the clock and calendar
      arithmetic is determined by a quotient and an in-range remainder. */
  lemma DivisionBy(x: int, k: int, r: int, m: int)
    requires m == SecondsPerMinute || m == SecondsPerHour || m == SecondsPerDay
          || m == 365 || m == 400 || m == 1460 || m == 1461 || m == 36524 || m == 146096
    requires x == k * m + r && 0 <= r < m
    ensures x / m == k && x % m == r
  {
  }

  /** A calendar date in the proleptic Gregorian calendar. */
  datatype Date = Date(year: int, month: int, day: int)

  /** Days from 1970-01-01 to the given date (H. Hinnant's `days_from_civil`). */
  function DaysFromCivil(d: Date): int
  {
    var y := if d.month <= 2 then d.year - 1 else d.year;
    var era := y / 400;
    var yoe := y - era * 400;
    var mp := if d.month > 2 then d.month - 3 else d.month + 9;
    var doy := (153 * mp + 2) / 5 + d.day - 1;
    var doe := yoe * 365 + yoe / 4 - yoe / 100 + doy;
    era * 146097 + doe - 719468
  }

  /** Within one 400-year era (`doe` days into it) the year-of-era estimate
      lies in 0..399 and leaves a day of the year in 0..365. The proof splits
      the era into centuries, four-year cycles and years. */
  lemma DayOfYearInRange(doe: int)
    requires 0 <= doe < 146097
    ensures var yoe := (doe - doe / 1460 + doe / 36524 - doe / 146096) / 365;
            0 <= yoe < 400 && 0 <= doe - (365 * yoe + yoe / 4 - yoe / 100) <= 365
  {
    if doe == 146096 {
      DivisionBy(doe, 100, 96, 1460);
      DivisionBy(doe, 4, 0, 36524);
      DivisionBy(doe, 1, 0, 146096);
      DivisionBy(146096 - 100 + 4 - 1, 399, 364, 365);
    } else {
      var c := doe / 36524;
      var r := doe - 36524 * c;
      var b := r / 1461;
      var r' := r - 1461 * b;
      assert 0 <= c <= 3 && 0 <= b <= 24 && 0 <= r' <= 1460;
      var e := if 24 * c + b + r' >= 1460 then 1 else 0;
      DivisionBy(doe, 25 * c + b + e, 24 * c + b + r' - 1460 * e, 1460);
      DivisionBy(doe, 0, doe, 146096);
      var a := (r' - e) / 365;
      assert 0 <= a <= 3;
      var x := doe - doe / 1460 + doe / 36524 - doe / 146096;
      assert x == 365 * (100 * c + 4 * b) + (r' - e);
      DivisionBy(x, 100 * c + 4 * b + a, r' - e - 365 * a, 365);
      var yoe := 100 * c + 4 * b + a;
      assert yoe / 4 == 25 * c + b;
      assert yoe / 100 == c;
    }
  }

  /** A day of the (March-based) year splits into a month index 0..11 and a
      day of the month 1..31. */
  lemma MonthOfYearInRange(doy: int)
    requires 0 <= doy <= 365
    ensures var mp := (5 * doy + 2) / 153;
            0 <= mp <= 11 && 1 <= doy - (153 * mp + 2) / 5 + 1 <= 31
  {
  }

  /** The civil date of the given day since 1970-01-01 (H. Hinnant's
      `civil_from_days`). */
  function CivilFromDays(z: int): (r: Date)
    ensures 1 <= r.month <= 12
    ensures 1 <= r.day <= 31
  {
    var z' := z + 719468;
    var era := z' / 146097;
    var doe := z' - era * 146097;
    DayOfYearInRange(doe);
    var yoe := (doe - doe / 1460 + doe / 36524 - doe / 146096) / 365;
    var doy := doe - (365 * yoe + yoe / 4 - yoe / 100);
    MonthOfYearInRange(doy);
    var mp := (5 * doy + 2) / 153;
    var day := doy - (153 * mp + 2) / 5 + 1;
    var month := if mp < 10 then mp + 3 else mp - 9;
    Date(if month <= 2 then yoe + era * 400 + 1 else yoe + era * 400, month, day)
  }

  /** Converting a day to its civil date and back yields the same day, so
      `CivilFromDays` names every day by a distinct date. */
  lemma CivilRoundTrip(z: int)
    ensures DaysFromCivil(CivilFromDays(z)) == z
  {
    var z' := z + 719468;
    var era := z' / 146097;
    var doe := z' - era * 146097;
    DayOfYearInRange(doe);
    var yoe := (doe - doe / 1460 + doe / 36524 - doe / 146096) / 365;
    var doy := doe - (365 * yoe + yoe / 4 - yoe / 100);
    MonthOfYearInRange(doy);
    var mp := (5 * doy + 2) / 153;
    var d := CivilFromDays(z);
    var y := if d.month <= 2 then d.year - 1 else d.year;
    assert y == yoe + era * 400;
    DivisionBy(y, era, yoe, 400);
    var mp' := if d.month > 2 then d.month - 3 else d.month + 9;
    assert mp' == mp;
    assert (153 * mp' + 2) / 5 + d.day - 1 == doy;
    assert y - era * 400 == yoe;
  }

  /** `t.Day()`: the day of the month, 1 to 31. */
  function DayOfMonth(t: Instant): (d: int)
    ensures 1 <= d <= 31
  {
    CivilFromDays(EpochDay(t)).day
  }

  /** The instant of the given date and clock time. */
  function At(d: Date, hour: int, minute: int, second: int): Instant
  {
    OnDay(DaysFromCivil(d), hour, minute, second)
  }

  /** The instant at the given clock time of the given day since 1970-01-01. */
  function OnDay(day: int, hour: int, minute: int, second: int): Instant
  {
    day * SecondsPerDay + hour * SecondsPerHour + minute * SecondsPerMinute + second
  }

  /** The clock fields of `OnDay(day, hour, minute, second)` read back the day
      and the clock time it was built from. */
  lemma OnDayReadsBack(day: int, hour: int, minute: int, second: int)
    requires 0 <= hour < 24 && 0 <= minute < 60 && 0 <= second < 60
    ensures EpochDay(OnDay(day, hour, minute, second)) == day
    ensures Hour(OnDay(day, hour, minute, second)) == hour
    ensures Minute(OnDay(day, hour, minute, second)) == minute
    ensures Second(OnDay(day, hour, minute, second)) == second
  {
    var t := OnDay(day, hour, minute, second);
    DivisionBy(t, day, hour * SecondsPerHour + minute * SecondsPerMinute + second, SecondsPerDay);
    DivisionBy(hour * SecondsPerHour + minute * SecondsPerMinute + second, hour, minute * SecondsPerMinute + second, SecondsPerHour);
    DivisionBy(t, day * 24 + hour, minute * SecondsPerMinute + second, SecondsPerHour);
    DivisionBy(minute * SecondsPerMinute + second, minute, second, SecondsPerMinute);
    DivisionBy(t, day * 1440 + hour * 60 + minute, second, SecondsPerMinute);
  }

  /** The clock fields of `At(d, hour, minute, second)` read back the date and
      the clock time it was built from. */
  lemma AtReadsBack(d: Date, hour: int, minute: int, second: int)
    requires 0 <= hour < 24 && 0 <= minute < 60 && 0 <= second < 60
    ensures EpochDay(At(d, hour, minute, second)) == DaysFromCivil(d)
    ensures Hour(At(d, hour, minute, second)) == hour
    ensures Minute(At(d, hour, minute, second)) == minute
    ensures Second(At(d, hour, minute, second)) == second
  {
    OnDayReadsBack(DaysFromCivil(d), hour, minute, second);
  }

  /** Midnight at the start of the given date (`time.Parse` of a date-only layout). */
  function Midnight(d: Date): Instant
  {
    At(d, 0, 0, 0)
  }
}

=== FILE: database_helper.dfy ===
/** `internal/database/helper.go`: converting rows to protobuf messages and
    validating a booking window against the booking rules. The JSON decoder
    and the day-difference function are injected, as the source's `Helper`
    struct injects them. */
module DatabaseHelper {
  import opened Wrappers
  import opened Errors
  import opened Clock
  import opened Records
  import Helper

  /** The injected `Convert`: decodes a facility's operating-hours JSON text. */
  type HoursDecoder = string -> Result<seq<OperatingHour>, CustomError>

  /** `convertFacilityModelToProto`: decode the operating hours and copy every
      other field unchanged; a decoding error is returned as it is. */
  function ConvertFacilityModelToProto(convert: HoursDecoder, data: FacilityRow): (r: Result<Facility, CustomError>)
    ensures r.Failure? <==> convert(data.operatingHours).Failure?
    ensures r.Failure? ==> r.error == convert(data.operatingHours).error
    ensures r.Success? ==> r.value.operatingHours == convert(data.operatingHours).value
    ensures r.Success? ==> FacilityRowOf(r.value, data.operatingHours) == data
  {
    match convert(data.operatingHours)
    case Failure(err) => Failure(err)
    case Success(hours) =>
      Success(Facility(data.id, data.organizationId, data.name, data.latitude,
                       data.longitude, hours, data.description))
  }

  /** The row a facility message was converted from, given the row's
      operating-hours text. */
  function FacilityRowOf(f: Facility, operatingHoursText: string): FacilityRow
  {
    FacilityRow(f.id, f.organizationId, f.name, f.latitude, f.longitude,
                operatingHoursText, f.description)
  }

  /** The decoder stub of `internal/database/helper_test.go`, which answers
      every text with no hours and no error. */
  function EmptyDecoder(text: string): Result<seq<OperatingHour>, CustomError>
  {
    Success([])
  }

  /** With the stub decoder, the zero row converts to the zero message and the
      populated row converts to the same fields with no operating hours. */
  lemma ConvertFacilityWithStubDecoder(text: string)
    ensures ConvertFacilityModelToProto(EmptyDecoder, FacilityRow(0, 0, "", Float64(0), Float64(0), "", ""))
         == Success(Facility(0, 0, "", Float64(0), Float64(0), [], ""))
    ensures ConvertFacilityModelToProto(EmptyDecoder, FacilityRow(12, 6, "ISE", Float64(1), Float64(2), text, "description"))
         == Success(Facility(12, 6, "ISE", Float64(1), Float64(2), [], "description"))
  {
  }

  /** `convertFacilityRequestModelToProto`: copy the fields; a NULL reject
      reason becomes nil and a non-NULL one its text. */
  function ConvertFacilityRequestModelToProto(data: RequestRow): (r: FacilityRequest)
    ensures r.rejectReason.Some? <==> data.rejectReason.valid
    ensures r.rejectReason.Some? ==> r.rejectReason.value == data.rejectReason.str
    ensures RequestRowOf(r) == data <==> (data.rejectReason.valid || data.rejectReason.str == "")
  {
    FacilityRequest(data.id, data.eventId, data.facilityId, data.status,
                    if data.rejectReason.valid then Some(data.rejectReason.str) else None,
                    data.start, data.finish)
  }

  /** The row that stores a request message; nil reason is stored as NULL. */
  function RequestRowOf(req: FacilityRequest): RequestRow
  {
    RequestRow(req.id, req.eventId, req.facilityId, req.status,
               match req.rejectReason
               case None => NullString("", false)
               case Some(s) => NullString(s, true),
               req.start, req.finish)
  }

  /** Storing a request message and converting the row back gives the message. */
  lemma RequestRoundTrip(req: FacilityRequest)
    ensures ConvertFacilityRequestModelToProto(RequestRowOf(req)) == req
  {
  }

  // The messages `checkDateInput` rejects a window with.
  const SameDayMessage: string := "Start and Finish must be the same day"
  const HorizonMessage: string := "Booking date can only be within 30 days period from today"
  const PastMessage: string := "Booking time must not be in the past"
  const WholeHourMessage: string := "Minutes and seconds must be 0"
  const OrderMessage: string := "Start must be earlier than Finish"
  const HoursMessage: string := "Not in operatingHours"

  /** Entry `i` is the last entry of `hours` for `weekday`. */
  predicate IsLastEntryFor(hours: seq<OperatingHour>, weekday: int, i: int)
  {
    && 0 <= i < |hours|
    && hours[i].day == weekday
    && forall j :: i < j < |hours| ==> hours[j].day != weekday
  }

  /** The index the loop of `checkDateInput` ends with: every entry whose day
      matches overwrites the previous choice, so the last one wins; -1 when
      no entry matches. */
  function LastIndexFor(hours: seq<OperatingHour>, weekday: int): (r: int)
    ensures r == -1 <==> forall i :: 0 <= i < |hours| ==> hours[i].day != weekday
    ensures r != -1 ==> IsLastEntryFor(hours, weekday, r)
  {
    if |hours| == 0 then -1
    else if hours[|hours| - 1].day == weekday then |hours| - 1
    else LastIndexFor(hours[..|hours| - 1], weekday)
  }

  /** At most one entry is the last one for a weekday. */
  lemma LastEntryIsUnique(hours: seq<OperatingHour>, weekday: int, i: int, j: int)
    requires IsLastEntryFor(hours, weekday, i) && IsLastEntryFor(hours, weekday, j)
    ensures i == j
  {
  }

  /** The operating hour `checkDateInput` settles on for a weekday, if any. */
  function LastEntryFor(hours: seq<OperatingHour>, weekday: int): Option<OperatingHour>
  {
    var i := LastIndexFor(hours, weekday);
    if i == -1 then None else Some(hours[i])
  }

  /** The booking rules, stated as one conjunction independent of the order
      in which `checkDateInput` tests them. */
  ghost predicate ValidWindow(dayDifference: (Instant, Instant) -> int, start: Instant, finish: Instant,
                              now: Instant, hours: seq<OperatingHour>)
  {
    && dayDifference(start, finish) == 0
    && 0 <= dayDifference(now, start) < 30
    && (dayDifference(now, start) == 0 ==> Hour(now) <= Hour(start))
    && Minute(start) == 0 && Second(start) == 0 && Minute(finish) == 0 && Second(finish) == 0
    && Hour(start) <= Hour(finish)
    && exists i :: IsLastEntryFor(hours, Weekday(start), i)
                   && hours[i].startHour <= Hour(start) && Hour(finish) <= hours[i].finishHour
  }

  /** `checkDateInput(start, finish, operatingHours)` with the clock reading
      `now` passed in: the first rule the window breaks decides the error, and
      no error means every rule holds. */
  function CheckDateInput(dayDifference: (Instant, Instant) -> int, start: Instant, finish: Instant,
                          now: Instant, hours: seq<OperatingHour>): (r: Option<CustomError>)
    ensures r.Some? ==> r.value.InputError?
  {
    if dayDifference(start, finish) != 0 then Some(InputError(SameDayMessage))
    else
      var fromNow := dayDifference(now, start);
      if fromNow >= 30 then Some(InputError(HorizonMessage))
      else if fromNow < 0 || (fromNow == 0 && Hour(start) < Hour(now)) then Some(InputError(PastMessage))
      else if Minute(start) + Second(start) + Minute(finish) + Second(finish) != 0 then Some(InputError(WholeHourMessage))
      else if Hour(start) > Hour(finish) then Some(InputError(OrderMessage))
      else match LastEntryFor(hours, Weekday(start))
        case None => Some(InputError(HoursMessage))
        case Some(entry) =>
          var isStartAfterOpening := entry.startHour <= Hour(start);
          var isFinishBeforeClose := Hour(finish) <= entry.finishHour;
          if !isStartAfterOpening || !isFinishBeforeClose then Some(InputError(HoursMessage))
          else None
  }

  /** `CheckDateInput` accepts exactly the windows `ValidWindow` describes. */
  lemma CheckDateInputIsValidWindow(dayDifference: (Instant, Instant) -> int, start: Instant, finish: Instant,
                                    now: Instant, hours: seq<OperatingHour>)
    ensures CheckDateInput(dayDifference, start, finish, now, hours).None? <==> ValidWindow(dayDifference, start, finish, now, hours)
  {
    var k := LastIndexFor(hours, Weekday(start));
    if ValidWindow(dayDifference, start, finish, now, hours) {
      var i :| IsLastEntryFor(hours, Weekday(start), i)
               && hours[i].startHour <= Hour(start) && Hour(finish) <= hours[i].finishHour;
      LastEntryIsUnique(hours, Weekday(start), i, k);
    }
  }

  /** The rules are tested in order, and the first one broken names the error:
      the same-day rule before any other, then the 30-day horizon, the past,
      whole hours, start-not-after-finish (equal hours pass), the weekday
      entry, and the opening hours. */
  lemma RejectionOrder(dayDifference: (Instant, Instant) -> int, start: Instant, finish: Instant,
                       now: Instant, hours: seq<OperatingHour>)
    ensures var r := CheckDateInput(dayDifference, start, finish, now, hours);
      var d := dayDifference(now, start);
      && (dayDifference(start, finish) != 0 ==> r == Some(InputError(SameDayMessage)))
      && (dayDifference(start, finish) == 0 && d >= 30 ==> r == Some(InputError(HorizonMessage)))
      && (dayDifference(start, finish) == 0 && d < 30 && (d < 0 || (d == 0 && Hour(start) < Hour(now)))
          ==> r == Some(InputError(PastMessage)))
      && (ValidWindowUpToClock(dayDifference, start, finish, now)
          && (Minute(start) != 0 || Second(start) != 0 || Minute(finish) != 0 || Second(finish) != 0)
          ==> r == Some(InputError(WholeHourMessage)))
      && (ValidWindowUpToClock(dayDifference, start, finish, now) && Minute(start) == 0 && Second(start) == 0
          && Minute(finish) == 0 && Second(finish) == 0 && Hour(start) > Hour(finish)
          ==> r == Some(InputError(OrderMessage)))
      && (ValidWindowUpToClock(dayDifference, start, finish, now) && Minute(start) == 0 && Second(start) == 0
          && Minute(finish) == 0 && Second(finish) == 0 && Hour(start) <= Hour(finish)
          && (forall i :: 0 <= i < |hours| ==> hours[i].day != Weekday(start))
          ==> r == Some(InputError(HoursMessage)))
      && (ValidWindowUpToClock(dayDifference, start, finish, now) && Minute(start) == 0 && Second(start) == 0
          && Minute(finish) == 0 && Second(finish) == 0 && Hour(start) <= Hour(finish)
          && LastEntryFor(hours, Weekday(start)).Some?
          && !(LastEntryFor(hours, Weekday(start)).value.startHour <= Hour(start)
               && Hour(finish) <= LastEntryFor(hours, Weekday(start)).value.finishHour)
          ==> r == Some(InputError(HoursMessage)))
  {
  }

  /** The first three rules hold: same day, within the horizon, not past. */
  predicate ValidWindowUpToClock(dayDifference: (Instant, Instant) -> int, start: Instant, finish: Instant, now: Instant)
  {
    && dayDifference(start, finish) == 0
    && 0 <= dayDifference(now, start) < 30
    && (dayDifference(now, start) == 0 ==> Hour(now) <= Hour(start))
  }

  /** With the service's own `DayDifference` injected, every window whose
      finish is after its start fails the same-day rule, so an accepted
      window never runs forwards. */
  lemma CeilingRejectsForwardWindows(start: Instant, finish: Instant, now: Instant, hours: seq<OperatingHour>)
    ensures start < finish ==> CheckDateInput(Helper.DayDifference, start, finish, now, hours) == Some(InputError(SameDayMessage))
    ensures CheckDateInput(Helper.DayDifference, start, finish, now, hours).None? ==> finish <= start
  {
  }

  /** `checkDateInput` with the calendar-day count injected in place of the
      ceiling: an accepted window lies within one calendar date and runs
      forwards (or is empty), within the opening hours of the last entry for
      its weekday. */
  function CheckDateInputByCalendar(start: Instant, finish: Instant, now: Instant, hours: seq<OperatingHour>): (r: Option<CustomError>)
    ensures r.None? ==> CivilFromDays(EpochDay(start)) == CivilFromDays(EpochDay(finish)) && start <= finish
  {
    ClockFieldsSplitTheDay(start);
    ClockFieldsSplitTheDay(finish);
    CheckDateInput(Helper.CalendarDayDifference, start, finish, now, hours)
  }

  /** The day numbers of 2021-01-03 (a Sunday) and 2021-01-04 (a Monday). */
  lemma EarlyJanuary2021()
    ensures DaysFromCivil(Date(2021, 1, 3)) == 18630
    ensures DaysFromCivil(Date(2021, 1, 4)) == 18631
  {
  }

  /** A 10:00 to 11:00 booking on a Monday (day number `monday`) at a
      facility open 09 to 17 on Mondays, made at noon the day before, passes
      every rule with the calendar count. */
  lemma MondayMorningBookingByCalendar(monday: int)
    requires Weekday(OnDay(monday, 0, 0, 0)) == 1
    ensures CheckDateInputByCalendar(OnDay(monday, 10, 0, 0), OnDay(monday, 11, 0, 0),
                                     OnDay(monday - 1, 12, 0, 0), [OperatingHour(1, 9, 17)]) == None
  {
    var start, finish, now := OnDay(monday, 10, 0, 0), OnDay(monday, 11, 0, 0), OnDay(monday - 1, 12, 0, 0);
    OnDayReadsBack(monday, 0, 0, 0);
    OnDayReadsBack(monday, 10, 0, 0);
    OnDayReadsBack(monday, 11, 0, 0);
    OnDayReadsBack(monday - 1, 12, 0, 0);
    assert Helper.CalendarDayDifference(start, finish) == 0;
    assert Helper.CalendarDayDifference(now, start) == 1;
    assert Weekday(start) == 1;
    var hours := [OperatingHour(1, 9, 17)];
    assert LastIndexFor(hours, 1) == 0;
  }

  /** 2021-01-04 is such a Monday, so the booking the ceiling rejects below
      passes with the calendar count. */
  lemma MondayJanuaryFourthByCalendar()
    ensures CheckDateInputByCalendar(At(Date(2021, 1, 4), 10, 0, 0), At(Date(2021, 1, 4), 11, 0, 0),
                                     At(Date(2021, 1, 3), 12, 0, 0), [OperatingHour(1, 9, 17)]) == None
  {
    EarlyJanuary2021();
    assert Weekday(OnDay(18631, 0, 0, 0)) == 1;
    MondayMorningBookingByCalendar(18631);
  }

  /** The same booking fails the same-day rule with the ceiling count. */
  lemma MondayMorningBookingByCeiling()
    ensures CheckDateInput(Helper.DayDifference, At(Date(2021, 1, 4), 10, 0, 0), At(Date(2021, 1, 4), 11, 0, 0),
                           At(Date(2021, 1, 3), 12, 0, 0), [OperatingHour(1, 9, 17)]) == Some(InputError(SameDayMessage))
  {
    EarlyJanuary2021();
    CeilingRejectsForwardWindows(OnDay(18631, 10, 0, 0), OnDay(18631, 11, 0, 0), OnDay(18630, 12, 0, 0), [OperatingHour(1, 9, 17)]);
  }
}

=== FILE: errors.dfy ===
/** The error taxonomy every operation of the facility service returns
    (`internal/typing/main.go`): each error kind has a gRPC status code and a message. */
module Errors {

  /** The gRPC status codes (`google.golang.org/grpc/codes`). */
  datatype Code =
    | OK | Canceled | Unknown | InvalidArgument | DeadlineExceeded | NotFound
    | AlreadyExists | PermissionDenied | ResourceExhausted | FailedPrecondition
    | Aborted | OutOfRange | Unimplemented | Internal | Unavailable | DataLoss
    | Unauthenticated

  /** The capabilities the service asks the account service about. */
  datatype Permission = UPDATE_EVENT | UPDATE_FACILITY

  /** The enum value's name, as protobuf's generated `String()` spells it. */
  function PermissionName(p: Permission): string
  {
    match p
    case UPDATE_EVENT => "UPDATE_EVENT"
    case UPDATE_FACILITY => "UPDATE_FACILITY"
  }

  /** `CustomError`: one constructor per implementing struct. */
  datatype CustomError =
    | DatabaseError(statusCode: Code, err: Cause)
    | NotFoundError(name: string)
    | PermissionError(permission: Permission)
    | AlreadyExistError(name: string)
    | InputError(name: string)
    | GRPCError(name: string)

  /** The Go `error` a `DatabaseError` wraps: another `CustomError`, or a
      driver error known only by its message. */
  datatype Cause = Nested(inner: CustomError) | Driver(message: string)

  const NotFoundSuffix: string := ": not found"
  const DeniedSuffix: string := " is denied"
  const AlreadyExistSuffix: string := ": already exist"
  const InputPrefix: string := "input error: "
  const ServicePrefix: string := "service error: "

  /** `Code()`. */
  function ErrorCode(e: CustomError): Code
  {
    match e
    case DatabaseError(c, _) => c
    case NotFoundError(_) => NotFound
    case PermissionError(_) => PermissionDenied
    case AlreadyExistError(_) => AlreadyExists
    case InputError(_) => InvalidArgument
    case GRPCError(_) => Unavailable
  }

  /** `Error()`. */
  function Message(e: CustomError): string
  {
    match e
    case DatabaseError(_, cause) => CauseMessage(cause)
    case NotFoundError(n) => n + NotFoundSuffix
    case PermissionError(p) => PermissionName(p) + DeniedSuffix
    case AlreadyExistError(n) => n + AlreadyExistSuffix
    case InputError(n) => InputPrefix + n
    case GRPCError(n) => ServicePrefix + n
  }

  function CauseMessage(c: Cause): string
  {
    match c
    case Nested(inner) => Message(inner)
    case Driver(m) => m
  }

  /** The error the store returns for a missing row: a `DatabaseError` with
      code NotFound wrapping a `NotFoundError` that names the table. */
  function StoreNotFound(name: string): (e: CustomError)
    ensures ErrorCode(e) == NotFound
    ensures Message(e) == Message(NotFoundError(name))
  {
    DatabaseError(NotFound, Nested(NotFoundError(name)))
  }

  /** Each error kind's code and message, as `internal/typing/main.go` maps them. */
  lemma ErrorMappings(n: string, p: Permission, c: Code, cause: Cause)
    ensures ErrorCode(NotFoundError(n)) == NotFound && Message(NotFoundError(n)) == n + ": not found"
    ensures ErrorCode(PermissionError(p)) == PermissionDenied && Message(PermissionError(p)) == PermissionName(p) + " is denied"
    ensures ErrorCode(AlreadyExistError(n)) == AlreadyExists && Message(AlreadyExistError(n)) == n + ": already exist"
    ensures ErrorCode(InputError(n)) == InvalidArgument && Message(InputError(n)) == "input error: " + n
    ensures ErrorCode(GRPCError(n)) == Unavailable && Message(GRPCError(n)) == "service error: " + n
    ensures ErrorCode(DatabaseError(c, cause)) == c && Message(DatabaseError(c, cause)) == CauseMessage(cause)
  {
  }

  /** Apart from `DatabaseError`, which carries any code, the status code
      identifies the error kind: two such errors share a code iff they are of
      the same kind, and none of them reports OK. */
  lemma CodeIdentifiesKind(e1: CustomError, e2: CustomError)
    requires !e1.DatabaseError? && !e2.DatabaseError?
    ensures ErrorCode(e1) != OK
    ensures ErrorCode(e1) == ErrorCode(e2) <==>
      (e1.NotFoundError? && e2.NotFoundError?) || (e1.PermissionError? && e2.PermissionError?) ||
      (e1.AlreadyExistError? && e2.AlreadyExistError?) || (e1.InputError? && e2.InputError?) ||
      (e1.GRPCError? && e2.GRPCError?)
  {
  }

  /** The message keeps the carried detail: two errors of the same kind with
      equal messages carry the same name (or the same permission). */
  lemma MessageDeterminesDetail(e1: CustomError, e2: CustomError)
    requires !e1.DatabaseError?
    requires e1.NotFoundError? <==> e2.NotFoundError?
    requires e1.PermissionError? <==> e2.PermissionError?
    requires e1.AlreadyExistError? <==> e2.AlreadyExistError?
    requires e1.InputError? <==> e2.InputError?
    requires e1.GRPCError? <==> e2.GRPCError?
    requires Message(e1) == Message(e2)
    ensures e1 == e2
  {
    match e1
    case NotFoundError(n1) =>
      var n2 := e2.name;
      assert n1 == Message(e1)[..|Message(e1)| - |NotFoundSuffix|];
      assert n2 == Message(e2)[..|Message(e2)| - |NotFoundSuffix|];
    case AlreadyExistError(n1) =>
      var n2 := e2.name;
      assert n1 == Message(e1)[..|Message(e1)| - |AlreadyExistSuffix|];
      assert n2 == Message(e2)[..|Message(e2)| - |AlreadyExistSuffix|];
    case InputError(n1) =>
      assert n1 == Message(e1)[|InputPrefix|..];
      assert e2.name == Message(e2)[|InputPrefix|..];
    case GRPCError(n1) =>
      assert n1 == Message(e1)[|ServicePrefix|..];
      assert e2.name == Message(e2)[|ServicePrefix|..];
    case PermissionError(_) =>
  }
}

=== FILE: helper.dfy ===
/** `DayDifference` of `internal/helper/main.go`: the number of days from one
    instant to another, as the elapsed time rounded UP to whole days. It is
    not a count of calendar dates; `CalendarDayDifference` is that count. */
module Helper {
  import opened Clock

  /** `int(math.Ceil(end.Sub(*start).Hours() / 24))`, with the floating-point
      hours replaced by exact integer seconds. The contract is the defining
      property of the ceiling: the least `r` such that `end - start` is at
      most `r` days. */
  function DayDifference(start: Instant, end: Instant): (r: int)
    ensures (r - 1) * SecondsPerDay < end - start <= r * SecondsPerDay
  {
    -((start - end) / SecondsPerDay)
  }

  /** An instant is zero days from itself. */
  lemma SameInstantIsZero(t: Instant)
    ensures DayDifference(t, t) == 0
  {
  }

  /** For instants a whole number `k` of days apart the result is exactly `k`
      forwards and `-k` backwards. */
  lemma WholeDaysAreExact(a: Instant, k: int)
    ensures DayDifference(a, a + k * SecondsPerDay) == k
    ensures DayDifference(a + k * SecondsPerDay, a) == -k
  {
  }

  /** Any forward difference of at most one day (one second across midnight
      included) gives 1; any backward difference of less than one day gives 0. */
  lemma UnderOneDay(start: Instant, end: Instant)
    ensures 0 < end - start <= SecondsPerDay ==> DayDifference(start, end) == 1
    ensures -SecondsPerDay < end - start <= 0 ==> DayDifference(start, end) == 0
  {
  }

  /** A later end never gives a smaller result. */
  lemma MonotoneInEnd(start: Instant, end1: Instant, end2: Instant)
    requires end1 <= end2
    ensures DayDifference(start, end1) <= DayDifference(start, end2)
  {
  }

  /** The day numbers of the dates the test table uses around the millennium. */
  lemma TestDates()
    ensures DaysFromCivil(Date(1999, 12, 25)) == 10950
    ensures DaysFromCivil(Date(1999, 12, 31)) == 10956
    ensures DaysFromCivil(Date(2000, 1, 1)) == 10957
  {
    assert 1999 / 400 == 4 && 399 / 4 == 99 && 399 / 100 == 3 && (153 * 9 + 2) / 5 == 275;
    assert (153 * 10 + 2) / 5 == 306;
  }

  /** The day numbers of the leap-year ends of the test table. */
  lemma YearEndTestDates()
    ensures DaysFromCivil(Date(2000, 12, 30)) == 11321
    ensures DaysFromCivil(Date(2000, 12, 31)) == 11322
    ensures DaysFromCivil(Date(2020, 12, 31)) == 18627
  {
    assert 2000 / 400 == 5 && 0 / 4 == 0 && 0 / 100 == 0 && (153 * 9 + 2) / 5 == 275;
    assert 2020 / 400 == 5 && 20 / 4 == 5 && 20 / 100 == 0;
  }

  /** The remaining day numbers of the test table. */
  lemma MoreTestDates()
    ensures DaysFromCivil(Date(2003, 10, 25)) == 12350
    ensures DaysFromCivil(Date(2006, 1, 2)) == 13150
    ensures DaysFromCivil(Date(2006, 1, 3)) == 13151
  {
    assert 2003 / 400 == 5 && 3 / 4 == 0 && 3 / 100 == 0 && (153 * 7 + 2) / 5 == 214;
    assert 2005 / 400 == 5 && 5 / 4 == 1 && 5 / 100 == 0 && (153 * 10 + 2) / 5 == 306;
  }

  /** The table of `internal/helper/main_test.go` that the code satisfies:
      date pairs at midnight (leap years included) and the two clock-time rows
      that agree with the code. */
  lemma TestTable()
    ensures DayDifference(Midnight(Date(1999, 12, 31)), Midnight(Date(2000, 1, 1))) == 1
    ensures DayDifference(Midnight(Date(2000, 1, 1)), Midnight(Date(1999, 12, 31))) == -1
    ensures DayDifference(Midnight(Date(1999, 12, 31)), Midnight(Date(1999, 12, 25))) == -6
    ensures DayDifference(Midnight(Date(2000, 12, 31)), Midnight(Date(2003, 10, 25))) == 1028
    ensures DayDifference(Midnight(Date(2003, 10, 25)), Midnight(Date(2000, 12, 31))) == -1028
    ensures DayDifference(Midnight(Date(2000, 12, 30)), Midnight(Date(2020, 12, 31))) == 7306
    ensures DayDifference(Midnight(Date(2020, 12, 31)), Midnight(Date(2000, 12, 30))) == -7306
    ensures DayDifference(At(Date(2006, 1, 2), 23, 54, 5), At(Date(2006, 1, 2), 5, 4, 5)) == 0
    ensures DayDifference(At(Date(2006, 1, 2), 23, 59, 59), At(Date(2006, 1, 3), 0, 0, 0)) == 1
  {
    TestDates();
    YearEndTestDates();
    MoreTestDates();
  }

  /** The last row of the clock-time table expects -1 for one second
      backwards across midnight; the ceiling gives 0. So `DayDifference` is
      not antisymmetric: the same pair gives 1 forwards. */
  lemma TestRowExpectingMinusOneFails()
    ensures DayDifference(At(Date(2006, 1, 3), 0, 0, 0), At(Date(2006, 1, 2), 23, 59, 59)) == 0
    ensures DayDifference(At(Date(2006, 1, 2), 23, 59, 59), At(Date(2006, 1, 3), 0, 0, 0)) == 1
  {
    TestDates();
    YearEndTestDates();
    MoreTestDates();
  }

  /** The count of calendar-day boundaries from `start` to `end`: the
      difference of the two dates, regardless of the time of day. */
  function CalendarDayDifference(start: Instant, end: Instant): (r: int)
    ensures start <= end ==> 0 <= r
    ensures r == 0 <==> CivilFromDays(EpochDay(start)) == CivilFromDays(EpochDay(end))
  {
    CivilRoundTrip(EpochDay(end));
    CivilRoundTrip(EpochDay(start));
    EpochDay(end) - EpochDay(start)
  }

  /** The calendar count is antisymmetric, zero from an instant to itself, and
      agrees with `DayDifference` on instants whole days apart. */
  lemma CalendarDayDifferenceProperties(a: Instant, b: Instant, k: int)
    ensures CalendarDayDifference(a, b) == -CalendarDayDifference(b, a)
    ensures CalendarDayDifference(a, a) == 0
    ensures CalendarDayDifference(a, a + k * SecondsPerDay) == k == DayDifference(a, a + k * SecondsPerDay)
  {
    WholeDaysAreExact(a, k);
  }

  /** At midnight the calendar count is the difference of the dates' day
      numbers. */
  lemma CalendarDayDifferenceAtMidnight(a: Date, b: Date)
    ensures CalendarDayDifference(Midnight(a), Midnight(b)) == DaysFromCivil(b) - DaysFromCivil(a)
  {
    AtReadsBack(a, 0, 0, 0);
    AtReadsBack(b, 0, 0, 0);
  }

  /** The date rows of the test table around the millennium. */
  lemma CalendarMillenniumRows()
    ensures CalendarDayDifference(Midnight(Date(1999, 12, 31)), Midnight(Date(2000, 1, 1))) == 1
    ensures CalendarDayDifference(Midnight(Date(2000, 1, 1)), Midnight(Date(1999, 12, 31))) == -1
    ensures CalendarDayDifference(Midnight(Date(1999, 12, 31)), Midnight(Date(1999, 12, 25))) == -6
  {
    TestDates();
    CalendarDayDifferenceAtMidnight(Date(1999, 12, 31), Date(2000, 1, 1));
    CalendarDayDifferenceAtMidnight(Date(2000, 1, 1), Date(1999, 12, 31));
    CalendarDayDifferenceAtMidnight(Date(1999, 12, 31), Date(1999, 12, 25));
  }

  /** The date rows of the test table that span several years. */
  lemma CalendarLongRows()
    ensures CalendarDayDifference(Midnight(Date(2000, 12, 31)), Midnight(Date(2003, 10, 25))) == 1028
    ensures CalendarDayDifference(Midnight(Date(2003, 10, 25)), Midnight(Date(2000, 12, 31))) == -1028
    ensures CalendarDayDifference(Midnight(Date(2000, 12, 30)), Midnight(Date(2020, 12, 31))) == 7306
    ensures CalendarDayDifference(Midnight(Date(2020, 12, 31)), Midnight(Date(2000, 12, 30))) == -7306
  {
    YearEndTestDates();
    MoreTestDates();
    CalendarDayDifferenceAtMidnight(Date(2000, 12, 31), Date(2003, 10, 25));
    CalendarDayDifferenceAtMidnight(Date(2003, 10, 25), Date(2000, 12, 31));
    CalendarDayDifferenceAtMidnight(Date(2000, 12, 30), Date(2020, 12, 31));
    CalendarDayDifferenceAtMidnight(Date(2020, 12, 31), Date(2000, 12, 30));
  }

  /** The clock-time rows of the test table. */
  lemma CalendarClockRows()
    ensures CalendarDayDifference(At(Date(2006, 1, 2), 23, 54, 5), At(Date(2006, 1, 2), 5, 4, 5)) == 0
    ensures CalendarDayDifference(At(Date(2006, 1, 2), 23, 59, 59), At(Date(2006, 1, 3), 0, 0, 0)) == 1
    ensures CalendarDayDifference(At(Date(2006, 1, 3), 0, 0, 0), At(Date(2006, 1, 2), 23, 59, 59)) == -1
  {
    MoreTestDates();
    AtReadsBack(Date(2006, 1, 2), 23, 54, 5);
    AtReadsBack(Date(2006, 1, 2), 5, 4, 5);
    AtReadsBack(Date(2006, 1, 2), 23, 59, 59);
    AtReadsBack(Date(2006, 1, 3), 0, 0, 0);
  }

  /** The calendar count satisfies all ten rows of the test table, including
      the one that expects -1. */
  lemma CalendarDayDifferenceSatisfiesTestTable()
    ensures CalendarDayDifference(Midnight(Date(1999, 12, 31)), Midnight(Date(2000, 1, 1))) == 1
    ensures CalendarDayDifference(Midnight(Date(2000, 1, 1)), Midnight(Date(1999, 12, 31))) == -1
    ensures CalendarDayDifference(Midnight(Date(1999, 12, 31)), Midnight(Date(1999, 12, 25))) == -6
    ensures CalendarDayDifference(Midnight(Date(2000, 12, 31)), Midnight(Date(2003, 10, 25))) == 1028
    ensures CalendarDayDifference(Midnight(Date(2003, 10, 25)), Midnight(Date(2000, 12, 31))) == -1028
    ensures CalendarDayDifference(Midnight(Date(2000, 12, 30)), Midnight(Date(2020, 12, 31))) == 7306
    ensures CalendarDayDifference(Midnight(Date(2020, 12, 31)), Midnight(Date(2000, 12, 30))) == -7306
    ensures CalendarDayDifference(At(Date(2006, 1, 2), 23, 54, 5), At(Date(2006, 1, 2), 5, 4, 5)) == 0
    ensures CalendarDayDifference(At(Date(2006, 1, 2), 23, 59, 59), At(Date(2006, 1, 3), 0, 0, 0)) == 1
    ensures CalendarDayDifference(At(Date(2006, 1, 3), 0, 0, 0), At(Date(2006, 1, 2), 23, 59, 59)) == -1
  {
    CalendarMillenniumRows();
    CalendarLongRows();
    CalendarClockRows();
  }
}

=== FILE: records.dfy ===
/** The records the service stores and returns: the database rows of
    `internal/model/main.go` and the protobuf messages they convert to. */
module Records {
  import opened Wrappers
  import opened Clock

  /** A request's lifecycle state, stored as its name in the `status` column. */
  datatype Status = PENDING | APPROVED | REJECTED

  /** A 64-bit float (a latitude or longitude), carried as its bit pattern;
      the service only copies it. */
  datatype Float64 = Float64(bits: int)

  /** `common.OperatingHour`: on weekday `day` (Sunday = 0, the numbering the
      service compares with Go's `time.Weekday`) the facility opens at
      `startHour` and closes at `finishHour`. */
  datatype OperatingHour = OperatingHour(day: int, startHour: int, finishHour: int)

  /** `sql.NullString`: a nullable text column. */
  datatype NullString = NullString(str: string, valid: bool)

  /** `model.Facility`: a row of the `facility` table; the operating hours are
      still the JSON text of the column. */
  datatype FacilityRow = FacilityRow(
    id: int,
    organizationId: int,
    name: string,
    latitude: Float64,
    longitude: Float64,
    operatingHours: string,
    description: string)

  /** `model.FacilityRequest`: a row of the `facility_request` table. */
  datatype RequestRow = RequestRow(
    id: int,
    eventId: int,
    facilityId: int,
    status: Status,
    rejectReason: NullString,
    start: Instant,
    finish: Instant)

  /** `common.Facility`: a facility as the service returns it. */
  datatype Facility = Facility(
    id: int,
    organizationId: int,
    name: string,
    latitude: Float64,
    longitude: Float64,
    operatingHours: seq<OperatingHour>,
    description: string)

  /** `common.FacilityRequest`: a booking request as the service returns it;
      a nil `RejectReason` is `None`. */
  datatype FacilityRequest = FacilityRequest(
    id: int,
    eventId: int,
    facilityId: int,
    status: Status,
    rejectReason: Option<string>,
    start: Instant,
    finish: Instant)
}

=== FILE: store.dfy ===
/** `internal/database/main.go`: the store operations the booking logic uses,
    over an in-memory copy of the `facility` and `facility_request` tables.
    Each query's WHERE clause becomes a predicate on rows. */
module Store {
  import opened Wrappers
  import opened Errors
  import opened Clock
  import opened Records
  import DatabaseHelper

  /** The two tables, rows in storage order. */
  datatype Db = Db(facilities: seq<FacilityRow>, requests: seq<RequestRow>)

  /** The first row whose id (read by `idOf`) is `id` — a `SELECT ... WHERE
      id = ?` read with `Get`, which keeps the first row. Both tables use it. */
  function FindById<T>(rows: seq<T>, idOf: T -> int, id: int): (r: Option<T>)
    ensures r.None? <==> forall i :: 0 <= i < |rows| ==> idOf(rows[i]) != id
    ensures r.Some? ==> r.value in rows && idOf(r.value) == id
  {
    if |rows| == 0 then None
    else if idOf(rows[0]) == id then Some(rows[0])
    else FindById(rows[1..], idOf, id)
  }

  /** `GetFacilityInfo`: the facility's row, or a NotFound-coded store error
      naming "facility". */
  function GetFacilityInfo(db: Db, facilityId: int): (r: Result<FacilityRow, CustomError>)
    ensures r.Failure? <==> forall i :: 0 <= i < |db.facilities| ==> db.facilities[i].id != facilityId
    ensures r.Failure? ==> r.error == StoreNotFound("facility") && ErrorCode(r.error) == NotFound
    ensures r.Success? ==> r.value in db.facilities && r.value.id == facilityId
  {
    match FindById(db.facilities, (f: FacilityRow) => f.id, facilityId)
    case None => Failure(StoreNotFound("facility"))
    case Some(row) => Success(row)
  }

  /** `GetFacilityRequest`: the request's row converted to a message, or a
      NotFound-coded store error (which, as written, names "facility"). */
  function GetFacilityRequest(db: Db, requestId: int): (r: Result<FacilityRequest, CustomError>)
    ensures r.Failure? <==> forall i :: 0 <= i < |db.requests| ==> db.requests[i].id != requestId
    ensures r.Failure? ==> r.error == StoreNotFound("facility") && ErrorCode(r.error) == NotFound
    ensures r.Success? ==> (r.value.id == requestId
      && exists i :: 0 <= i < |db.requests| && DatabaseHelper.ConvertFacilityRequestModelToProto(db.requests[i]) == r.value)
  {
    match FindById(db.requests, (q: RequestRow) => q.id, requestId)
    case None => Failure(StoreNotFound("facility"))
    case Some(row) => Success(DatabaseHelper.ConvertFacilityRequestModelToProto(row))
  }

  /** The literal condition of the overlap query: the candidate starts inside
      the stored window, or ends inside it (both half-open, on opposite sides). */
  predicate OverlapCondition(start: Instant, finish: Instant, row: RequestRow)
  {
    (start >= row.start && start < row.finish) || (finish > row.start && finish <= row.finish)
  }

  /** A row the overlap query counts: same facility, APPROVED, condition holds. */
  predicate Conflicts(facilityId: int, start: Instant, finish: Instant, row: RequestRow)
  {
    row.facilityId == facilityId && row.status == APPROVED && OverlapCondition(start, finish, row)
  }

  /** `SELECT COUNT(*)` over the rows satisfying `p`. */
  function CountWhere(rows: seq<RequestRow>, p: RequestRow -> bool): (n: nat)
    ensures n <= |rows|
    ensures n == 0 <==> forall i :: 0 <= i < |rows| ==> !p(rows[i])
  {
    if |rows| == 0 then 0
    else (if p(rows[0]) then 1 else 0) + CountWhere(rows[1..], p)
  }

  /** `IsOverlapTime`: the facility lookup's error when the facility is absent
      (no rows are counted then); otherwise whether any APPROVED request of
      that facility meets the overlap condition. */
  function IsOverlapTime(db: Db, facilityId: int, start: Instant, finish: Instant): (r: Result<bool, CustomError>)
    ensures r.Failure? <==> GetFacilityInfo(db, facilityId).Failure?
    ensures r.Failure? ==> r.error == GetFacilityInfo(db, facilityId).error && ErrorCode(r.error) == NotFound
    ensures r.Success? ==> (r.value <==> exists i :: 0 <= i < |db.requests| && Conflicts(facilityId, start, finish, db.requests[i]))
  {
    match GetFacilityInfo(db, facilityId)
    case Failure(err) => Failure(err)
    case Success(_) => Success(CountWhere(db.requests, row => Conflicts(facilityId, start, finish, row)) != 0)
  }

  /** Windows that only touch a stored one are not conflicts: ending exactly
      at its start, or starting exactly at its finish. */
  lemma TouchingIsNotOverlap(start: Instant, finish: Instant, row: RequestRow)
    requires start < finish && row.start < row.finish
    requires finish == row.start || start == row.finish
    ensures !OverlapCondition(start, finish, row)
  {
  }

  /** A candidate that strictly contains a stored window is not caught by
      the condition, although the two share every instant of the stored one. */
  lemma ContainmentIsNotOverlap(start: Instant, finish: Instant, row: RequestRow)
    requires start < row.start && row.finish < finish
    ensures !OverlapCondition(start, finish, row)
  {
  }

  /** Rows that are not APPROVED or belong to another facility never change
      the answer: adding one leaves `IsOverlapTime` as it was. */
  lemma IrrelevantRowsDoNotMatter(db: Db, row: RequestRow, facilityId: int, start: Instant, finish: Instant)
    requires row.status != APPROVED || row.facilityId != facilityId
    ensures IsOverlapTime(Db(db.facilities, db.requests + [row]), facilityId, start, finish)
         == IsOverlapTime(db, facilityId, start, finish)
  {
    var rows := db.requests + [row];
    if exists i :: 0 <= i < |rows| && Conflicts(facilityId, start, finish, rows[i]) {
      var i :| 0 <= i < |rows| && Conflicts(facilityId, start, finish, rows[i]);
      assert i < |db.requests| && rows[i] == db.requests[i];
    }
    if exists i :: 0 <= i < |db.requests| && Conflicts(facilityId, start, finish, db.requests[i]) {
      var i :| 0 <= i < |db.requests| && Conflicts(facilityId, start, finish, db.requests[i]);
      assert rows[i] == db.requests[i];
    }
  }

  /** An approved 10:00 to 12:00 booking: 09:00 to 10:00 and 12:00 to 14:00 do
      not conflict, 11:00 to 13:00 does. */
  lemma HourBoundaryExamples(day: int, facilityId: int, row: RequestRow)
    requires row.facilityId == facilityId && row.status == APPROVED
    requires row.start == OnDay(day, 10, 0, 0) && row.finish == OnDay(day, 12, 0, 0)
    ensures !Conflicts(facilityId, OnDay(day, 9, 0, 0), OnDay(day, 10, 0, 0), row)
    ensures Conflicts(facilityId, OnDay(day, 11, 0, 0), OnDay(day, 13, 0, 0), row)
    ensures !Conflicts(facilityId, OnDay(day, 12, 0, 0), OnDay(day, 14, 0, 0), row)
  {
  }

  /** The textbook test for two half-open windows sharing an instant. */
  predicate WindowsIntersect(start: Instant, finish: Instant, row: RequestRow)
  {
    start < row.finish && row.start < finish
  }

  /** For non-empty windows the query's condition implies intersection, and
      intersection implies the condition or strict containment: containment
      is the one case the query misses. */
  lemma OverlapConditionMissesOnlyContainment(start: Instant, finish: Instant, row: RequestRow)
    requires start < finish && row.start < row.finish
    ensures OverlapCondition(start, finish, row) ==> WindowsIntersect(start, finish, row)
    ensures WindowsIntersect(start, finish, row) <==>
            OverlapCondition(start, finish, row) || (start < row.start && row.finish < finish)
  {
  }

  /** A row the evidently intended query would count: same facility,
      APPROVED, and sharing an instant with the candidate window. */
  predicate Intersects(facilityId: int, start: Instant, finish: Instant, row: RequestRow)
  {
    row.facilityId == facilityId && row.status == APPROVED && WindowsIntersect(start, finish, row)
  }

  /** `t` lies in the half-open window from `a` to `b`. */
  predicate Within(t: Instant, a: Instant, b: Instant)
  {
    a <= t < b
  }

  /** For non-empty windows the interval test means what it says: the two
      windows share an instant. */
  lemma WindowsIntersectIffSharedInstant(start: Instant, finish: Instant, row: RequestRow)
    requires start < finish && row.start < row.finish
    ensures WindowsIntersect(start, finish, row) <==>
            exists t :: Within(t, start, finish) && Within(t, row.start, row.finish)
  {
    if WindowsIntersect(start, finish, row) {
      var t := if start < row.start then row.start else start;
      assert Within(t, start, finish) && Within(t, row.start, row.finish);
    }
  }

  /** `IsOverlapTime` with the evidently intended condition: the same lookup
      error for a missing facility; otherwise whether any APPROVED request of
      the facility shares an instant with the window. */
  function IsOverlapTimeIntended(db: Db, facilityId: int, start: Instant, finish: Instant): (r: Result<bool, CustomError>)
    ensures r.Failure? <==> GetFacilityInfo(db, facilityId).Failure?
    ensures r.Failure? ==> r.error == IsOverlapTime(db, facilityId, start, finish).error
    ensures r.Success? ==> (r.value <==> exists i :: 0 <= i < |db.requests| && Intersects(facilityId, start, finish, db.requests[i]))
  {
    match GetFacilityInfo(db, facilityId)
    case Failure(err) => Failure(err)
    case Success(_) => Success(CountWhere(db.requests, row => Intersects(facilityId, start, finish, row)) != 0)
  }

  /** For non-empty windows the intended check flags everything the query
      flags (`ContainedBookingIsMissed` shows the converse fails). */
  lemma IntendedOverlapExtendsQuery(db: Db, facilityId: int, start: Instant, finish: Instant)
    requires start < finish
    requires forall i :: 0 <= i < |db.requests| ==> db.requests[i].start < db.requests[i].finish
    ensures IsOverlapTime(db, facilityId, start, finish) == Success(true) ==>
            IsOverlapTimeIntended(db, facilityId, start, finish) == Success(true)
  {
    if IsOverlapTime(db, facilityId, start, finish) == Success(true) {
      var i :| 0 <= i < |db.requests| && Conflicts(facilityId, start, finish, db.requests[i]);
      OverlapConditionMissesOnlyContainment(start, finish, db.requests[i]);
      assert Intersects(facilityId, start, finish, db.requests[i]);
    }
  }

  /** Facility 1 with an approved booking from 10:00 to 12:00: a request from
      09:00 to 13:00 passes the query's check but not the intended one. */
  lemma ContainedBookingIsMissed(day: int, facility: FacilityRow, row: RequestRow)
    requires facility.id == 1
    requires row.facilityId == 1 && row.status == APPROVED
    requires row.start == OnDay(day, 10, 0, 0) && row.finish == OnDay(day, 12, 0, 0)
    ensures IsOverlapTime(Db([facility], [row]), 1, OnDay(day, 9, 0, 0), OnDay(day, 13, 0, 0)) == Success(false)
    ensures IsOverlapTimeIntended(Db([facility], [row]), 1, OnDay(day, 9, 0, 0), OnDay(day, 13, 0, 0)) == Success(true)
  {
    var db := Db([facility], [row]);
    assert FindById(db.facilities, (f: FacilityRow) => f.id, 1) == Some(facility);
    assert !Conflicts(1, OnDay(day, 9, 0, 0), OnDay(day, 13, 0, 0), db.requests[0]);
    assert Intersects(1, OnDay(day, 9, 0, 0), OnDay(day, 13, 0, 0), db.requests[0]);
  }

  /** Count of rows carrying the given id: the affected-row count of an
      `UPDATE ... WHERE id = ?`. */
  function CountId(rows: seq<RequestRow>, id: int): (n: nat)
    ensures n <= |rows|
    ensures n == 0 <==> forall i :: 0 <= i < |rows| ==> rows[i].id != id
  {
    CountWhere(rows, (row: RequestRow) => row.id == id)
  }

  /** A row after `SET status = ?[, reject_reason = ?]`. */
  function SetStatus(row: RequestRow, status: Status, reason: Option<string>): RequestRow
  {
    row.(status := status,
         rejectReason := if reason.Some? then NullString(reason.value, true) else row.rejectReason)
  }

  /** The outcome of an UPDATE: the new tables and the error, if any. */
  datatype Update = Update(db: Db, err: Option<CustomError>)

  /** `updateFacilityRequest`: every row with the id gets the status (and the
      reason, when one is given); the call succeeds iff exactly one row was
      affected and otherwise reports a NotFound-coded error. The WHERE clause
      tests only the id, so any current status is overwritten. */
  function UpdateFacilityRequest(db: Db, requestId: int, status: Status, reason: Option<string>): (u: Update)
    ensures u.err.None? <==> CountId(db.requests, requestId) == 1
    ensures u.err.Some? ==> u.err.value == StoreNotFound("FacilityRequest") && ErrorCode(u.err.value) == NotFound
    ensures u.db.facilities == db.facilities && |u.db.requests| == |db.requests|
    ensures forall i :: 0 <= i < |db.requests| && db.requests[i].id != requestId ==> u.db.requests[i] == db.requests[i]
    ensures forall i :: 0 <= i < |db.requests| && db.requests[i].id == requestId ==>
      && u.db.requests[i].status == status
      && u.db.requests[i].rejectReason == (if reason.Some? then NullString(reason.value, true) else db.requests[i].rejectReason)
      && u.db.requests[i].(status := db.requests[i].status, rejectReason := db.requests[i].rejectReason) == db.requests[i]
  {
    var rows := seq(|db.requests|, i requires 0 <= i < |db.requests| =>
      if db.requests[i].id == requestId then SetStatus(db.requests[i], status, reason) else db.requests[i]);
    var count := CountId(db.requests, requestId);
    Update(Db(db.facilities, rows), if count != 1 then Some(StoreNotFound("FacilityRequest")) else None)
  }

  /** `ApproveFacilityRequest`: status APPROVED, reject reason untouched. */
  function ApproveFacilityRequest(db: Db, requestId: int): (u: Update)
    ensures u.err.None? <==> CountId(db.requests, requestId) == 1
    ensures |u.db.requests| == |db.requests|
    ensures forall i :: 0 <= i < |db.requests| && db.requests[i].id != requestId ==> u.db.requests[i] == db.requests[i]
    ensures forall i :: 0 <= i < |db.requests| && db.requests[i].id == requestId ==>
      u.db.requests[i] == db.requests[i].(status := APPROVED)
  {
    UpdateFacilityRequest(db, requestId, APPROVED, None)
  }

  /** `RejectFacilityRequest`: status REJECTED, and the reason when one is given. */
  function RejectFacilityRequest(db: Db, requestId: int, reason: Option<string>): (u: Update)
    ensures u.err.None? <==> CountId(db.requests, requestId) == 1
    ensures |u.db.requests| == |db.requests|
    ensures forall i :: 0 <= i < |db.requests| && db.requests[i].id != requestId ==> u.db.requests[i] == db.requests[i]
    ensures forall i :: 0 <= i < |db.requests| && db.requests[i].id == requestId ==>
      && u.db.requests[i].status == REJECTED
      && (reason.Some? ==> u.db.requests[i].rejectReason == NullString(reason.value, true))
      && (reason.None? ==> u.db.requests[i].rejectReason == db.requests[i].rejectReason)
  {
    UpdateFacilityRequest(db, requestId, REJECTED, reason)
  }

  /** No status guard: approving a request twice succeeds both times, and a
      rejected request can be approved. */
  lemma ApproveTwiceSucceeds(db: Db, requestId: int)
    requires CountId(db.requests, requestId) == 1
    ensures ApproveFacilityRequest(db, requestId).err.None?
    ensures ApproveFacilityRequest(ApproveFacilityRequest(db, requestId).db, requestId).err.None?
  {
    var rows := db.requests;
    var rows' := ApproveFacilityRequest(db, requestId).db.requests;
    CountIdOnSameIds(rows, rows', requestId);
  }

  /** Updates keep ids, so the count of a given id is unchanged. */
  lemma {:induction false} CountIdOnSameIds(rows: seq<RequestRow>, rows': seq<RequestRow>, id: int)
    requires |rows| == |rows'|
    requires forall i :: 0 <= i < |rows| ==> rows[i].id == rows'[i].id
    ensures CountId(rows', id) == CountId(rows, id)
  {
    if |rows| > 0 {
      CountIdOnSameIds(rows[1..], rows'[1..], id);
    }
  }

  /** One more than the largest id in the table: an id no row carries (the
      stand-in for the table's serial id sequence). */
  function NextId(rows: seq<RequestRow>): (id: int)
    ensures forall i :: 0 <= i < |rows| ==> rows[i].id < id
  {
    if |rows| == 0 then 1
    else var rest := NextId(rows[1..]);
      if rows[0].id + 1 > rest then rows[0].id + 1 else rest
  }

  /** The outcome of an INSERT: the new tables and the returned message. */
  datatype Created = Created(db: Db, request: FacilityRequest)

  /** `CreateFacilityRequest`: insert a PENDING row with no reject reason and
      return it as a message carrying the given event, facility and window. */
  function CreateFacilityRequest(db: Db, eventId: int, facilityId: int, start: Instant, finish: Instant): (c: Created)
    ensures c.request.status == PENDING && c.request.rejectReason.None?
    ensures c.request.eventId == eventId && c.request.facilityId == facilityId
    ensures c.request.start == start && c.request.finish == finish
    ensures forall i :: 0 <= i < |db.requests| ==> db.requests[i].id != c.request.id
    ensures |c.db.requests| == |db.requests| + 1
    ensures c.db.facilities == db.facilities && c.db.requests[..|db.requests|] == db.requests
  {
    var id := NextId(db.requests);
    var row := RequestRow(id, eventId, facilityId, PENDING, NullString("", false), start, finish);
    Created(Db(db.facilities, db.requests + [row]), DatabaseHelper.ConvertFacilityRequestModelToProto(row))
  }

  /** A created request can be read back, and a PENDING request never makes a
      later window overlap. */
  lemma CreateThenGet(db: Db, eventId: int, facilityId: int, start: Instant, finish: Instant, s: Instant, f: Instant)
    ensures var c := CreateFacilityRequest(db, eventId, facilityId, start, finish);
      GetFacilityRequest(c.db, c.request.id) == Success(c.request)
    ensures var c := CreateFacilityRequest(db, eventId, facilityId, start, finish);
      IsOverlapTime(c.db, facilityId, s, f) == IsOverlapTime(db, facilityId, s, f)
  {
    var c := CreateFacilityRequest(db, eventId, facilityId, start, finish);
    FindRequestSkipsOthers(db.requests, c.db.requests[|db.requests|], c.request.id);
    IrrelevantRowsDoNotMatter(db, c.db.requests[|db.requests|], facilityId, s, f);
  }

  /** Looking up an id no earlier row carries finds the appended row. */
  lemma {:induction false} FindRequestSkipsOthers(rows: seq<RequestRow>, row: RequestRow, id: int)
    requires row.id == id
    requires forall i :: 0 <= i < |rows| ==> rows[i].id != id
    ensures FindById(rows + [row], (q: RequestRow) => q.id, id) == Some(row)
  {
    if |rows| > 0 {
      assert (rows + [row])[1..] == rows[1..] + [row];
      FindRequestSkipsOthers(rows[1..], row, id);
    }
  }
}

=== FILE: wrappers.dfy ===
/** Optional values and results: Go's `nil` pointer and `(value, error)` returns. */
module Wrappers {

  /** A value that may be absent (a nil pointer in the source). */
  datatype Option<+T> = None | Some(value: T)

  /** Either a value or an error (the source's `(value, CustomError)` pair with exactly one non-nil). */
  datatype Result<+T, +E> = Success(value: T) | Failure(error: E)
}
